=== FILE: README.md ===
# Organization directory core, modelled in Dafny

This project models the core of a small organization-directory service:
organizations live in buildings and are assigned activities, and activities
form a hierarchy through a nullable `parent_id`. The model covers

- the **depth guard** that runs before an activity row is inserted
  (`_get_activity_depth`, `restrict_activity_depth`, `max_depth = 3`), together
  with the primary-key and foreign-key checks of the insert. As written, the
  insert accepts a row that names itself as parent (the self-referencing
  foreign key is satisfied by the row being inserted), which creates a cycle;
  see "## Findings". The model checks each insert against the table left by
  the previous one, that is, one row per flush. Under that assumption, and
  with such rows refused, the table never holds a cycle, a dangling parent or
  a row whose computed depth exceeds 3. That depth bounds nesting only while
  no row has id 0, because the depth walk stops at a falsy id;
- the **activity forest** built for one organization
  (`__build_activity_tree_for_org`): the closure of its assigned activities
  under the parent link, the choice of roots, and the recursive expansion of
  each root into its children inside the closure;
- the **search dispatcher** `get_organizations` and its five strategies
  (by building address; by organization name, where an all-digit text must
  also equal the id; by activity name, where an all-digit text returns every
  organization or none; by geo radius; and the unfiltered listing), with SQL
  joins modelled as
  "one output row per matching partner row" and `.unique()` as de-duplication;
- the **request validator** `check_exactly_one_field_is_not_none`;
- **response shaping** (`__serialize_list_response`, `get_organization_by_id`),
  where a missing building or a NULL phone makes serialization fail.

Modules, one per file: `Base` (ids, `Option`, `Result`), `Text` (ASCII
case-insensitive substring matching, `isdigit`, `int()`), `Seqs` (filter,
de-duplication, join expansion, ascending order), `Activities` (the activity
table and its parent walks), `ActivityDepth`, `ActivityTree`,
`Organizations` (organizations, buildings, the assignment table), `Search`,
`Requests`, `Assembly`, and `Scenarios` (small concrete databases that pin
down the behaviour on examples).

The activity table is a map from id to `(name, parent)`. Walks over parent
links terminate because every function over the table requires `Acyclic`,
the existence of a rank that strictly decreases along each stored parent
link; `ActivityDepth.HierarchyStaysCapped` proves that every table reachable
from an empty one through checked inserts (the guarded insert with
self-parent rows refused) satisfies it.

## Model

| member | source | states |
|---|---|---|
| Activities.Ancestors | api/apps/organization/services/busines.py:63-76 | the ids `_collect_parents` adds for one activity always include the activity itself |
| Activities.AncestorsBelow | api/apps/organization/services/busines.py:63-76 | every proper ancestor is a stored row of strictly smaller rank, so the upward walk terminates |
| Activities.NotOwnAncestor | api/apps/activity/models.py:16-17 | on an acyclic table an activity is never among its parent's ancestors |
| Activities.AncestorsTransitive | api/apps/organization/services/busines.py:63-76 | the ancestors of an ancestor are ancestors |
| Activities.TopOf | api/apps/activity/models.py:16 | with the parent foreign key respected, every upward walk ends at a stored row whose `parent_id` is NULL |
| Activities.EmptyStoreIsWellFormed | api/apps/activity/models.py:9-18 | the empty activity table is acyclic and has no dangling parent |
| ActivityDepth.Depth | api/apps/organization/models.py:49-56 | the depth is 0 exactly for a falsy id (`None` or `0`), and 1 for a truthy id with no stored row |
| ActivityDepth.DepthCountsAncestors | api/apps/organization/models.py:49-56 | on a consistent table without id 0, the depth of a row is the number of rows on its path to the root |
| ActivityDepth.RestrictActivityDepth | api/apps/organization/models.py:38-46 | a row without parent always passes; a row with a parent passes iff the parent's depth is below 3, and the only failure is the depth error |
| ActivityDepth.InsertActivity | api/apps/organization/models.py:38-59 | as written: the insert succeeds iff the guard passes, the id is fresh and the parent is absent, stored or the row itself, and then adds exactly the new row; the depth error is raised iff the parent's depth is at least 3, the primary-key error iff the guard passes and the id is taken, and the foreign-key error iff the guard passes, the id is fresh and the parent is neither stored nor the row itself |
| ActivityDepth.SelfParentInsertMakesCycle | api/apps/organization/models.py:38-59 | on an acyclic table, a fresh row naming itself as parent passes the guard and the foreign key, and the table it yields is not acyclic |
| ActivityDepth.CheckedInsert | api/apps/organization/models.py:38-59 | the insert with self-parent rows refused: it succeeds iff the guard passes, the id is fresh and the parent is absent or stored, and then adds exactly the new row; a self-parent row the insert would accept is refused, and every answer other than that refusal is the insert's own answer |
| ActivityDepth.InsertPreservesWellFormed | api/apps/organization/models.py:38-59 | an accepted checked insert keeps the table acyclic and free of dangling parents |
| ActivityDepth.DepthFrame | api/apps/organization/models.py:49-56 | adding rows does not change the depth of existing rows |
| ActivityDepth.AcceptedInsertDepth | api/apps/organization/models.py:38-56 | a child with a nonzero id accepted by a checked insert has depth one more than its parent's, every accepted child has depth at most 3, and every older row keeps its depth |
| ActivityDepth.CappedLevels | api/apps/organization/models.py:38-56 | on a capped table without a row of id 0, no activity has more than 3 rows on its path to the root |
| ActivityDepth.ApplyInserts | api/apps/organization/models.py:38-59 | any sequence of checked inserts keeps the table acyclic, free of dangling parents and with every row's depth at most 3, and never loses rows |
| ActivityDepth.ApplyInsertsStep | api/apps/organization/models.py:38-59 | after an accepted checked insert the table is still capped, and the remaining inserts run from it |
| ActivityDepth.HierarchyStaysCapped | api/apps/organization/models.py:38-59 | starting from an empty table, no sequence of checked inserts produces a cycle, a dangling parent or a row whose depth exceeds 3 |
| ActivityTree.ForestNodesMember | api/apps/organization/schemas.py:32-35 | an id is in a forest iff it is in one of its trees |
| ActivityTree.AncestorsClosed | api/apps/organization/services/busines.py:63-76 | the ids collected for one activity contain the loaded parent of each of their members |
| ActivityTree.AncestorsWithin | api/apps/organization/services/busines.py:63-76 | a parent-closed set containing an activity contains all its ancestors |
| ActivityTree.Closure | api/apps/organization/services/busines.py:80-82 | the collected set holds every assigned activity, is closed under loaded parents, and is empty for an organization without activities |
| ActivityTree.ClosureIsLeast | api/apps/organization/services/busines.py:80-82 | the collected set is contained in every parent-closed set holding the assigned activities |
| ActivityTree.ClosureAreRows | api/apps/organization/services/busines.py:80-90 | when the assigned activities are stored rows, every collected id is a stored row |
| ActivityTree.BelowShrinks | api/apps/organization/services/busines.py:101-107 | descending to a child strictly decreases the termination measure of `_build_tree` |
| ActivityTree.Build | api/apps/organization/services/busines.py:101-107 | a built node carries the row's id and name |
| ActivityTree.BuildForest | api/apps/organization/services/busines.py:56-109 | an organization without activities gets the empty forest |
| ActivityTree.BuildMirrors | api/apps/organization/services/busines.py:101-107 | every node of a built tree is a collected row with its stored name, and its children are exactly that row's collected children in ascending id order |
| ActivityTree.BuildChildAt | api/apps/organization/services/busines.py:102-106 | every child of a node inside the collected set is built as one of that node's children |
| ActivityTree.BuildNodes | api/apps/organization/services/busines.py:101-107 | the tree built from a node holds exactly the collected rows that have that node as an ancestor |
| ActivityTree.ForestShape | api/apps/organization/services/busines.py:95-109 | the forest's roots are the chosen root ids in ascending order, each tree mirrors the table, and no node lies outside the collected set |
| ActivityTree.UniqueTop | api/apps/activity/models.py:16 | a walk up the hierarchy meets at most one NULL-parent row |
| ActivityTree.NoFallback | api/apps/organization/services/busines.py:95-97 | on a consistent table, an organization with activities always has a NULL-parent root, so the fallback root choice never fires |
| ActivityTree.ForestCoversClosure | api/apps/organization/services/busines.py:95-109 | on a consistent table every collected activity appears in the forest |
| ActivityTree.ForestDisjoint | api/apps/organization/services/busines.py:95-109 | on a consistent table no activity appears in two trees of the forest |
| ActivityTree.WellFormedForest | api/apps/organization/services/busines.py:56-109 | on a consistent table the forest's nodes are exactly the collected set, every assigned activity is shown, and the trees are disjoint |
| Organizations.AddLinkKeepsPairsUnique | api/apps/organization/models.py:28-35 | the composite primary key keeps assignment pairs distinct |
| Organizations.LinksOf | api/apps/organization/models.py:20-22 | the loaded assignments of an organization are exactly its links to stored activities |
| Organizations.ActivitiesOf | api/apps/organization/models.py:20-22 | `org.activities` holds exactly the stored activities linked to the organization |
| Organizations.ActivitiesOfDistinct | api/apps/organization/models.py:28-35 | with distinct pairs, an organization's activities are listed once each |
| Organizations.DistinctIdsHaveNoDuplicates | api/apps/organization/models.py:14 | distinct primary keys mean distinct organization rows |
| Text.LowerString | api/apps/organization/services/busines.py:127 | lower-casing keeps the length and maps each character independently |
| Text.ContainsIffOccurs | api/apps/organization/services/busines.py:127 | the substring test holds exactly when the pattern occurs at some position |
| Text.MissingFirstCharNotContained | api/apps/organization/services/busines.py:127 | a pattern whose first character never occurs in the text is not found |
| Text.MissingFirstCharIgnoreCase | api/apps/organization/services/busines.py:127 | the same holds for `ILIKE` when no character of the text folds to the pattern's first folded character |
| Text.ParseShow | api/apps/organization/services/busines.py:147-148 | `int(str(n)) == n` for every natural number |
| Text.ParseLeadingZero | api/apps/organization/services/busines.py:185-187 | a leading zero does not change the parsed id |
| Seqs.Filter | api/apps/organization/services/busines.py:235 | filtering keeps exactly the elements that pass, never more |
| Seqs.FilterConcat | api/apps/organization/services/busines.py:235 | filtering distributes over concatenation, so kept elements keep their relative order |
| Seqs.Dedup | api/apps/organization/services/busines.py:129 | `.unique()` yields distinct rows with the same members |
| Seqs.DedupDistinct | api/apps/organization/services/busines.py:129 | `.unique()` on distinct rows changes nothing |
| Seqs.DedupAppendRepeat | api/apps/organization/services/busines.py:129 | `.unique()` ignores further copies of a row already seen, and a run of copies of a new row adds it once at the end |
| Seqs.DedupExpand | api/apps/organization/services/busines.py:153-168 | `.unique()` over the rows of a join over distinct left rows equals filtering the left rows by "has a partner" |
| Seqs.Ascending | api/apps/organization/services/busines.py:95-99 | the ascending listing of an id set is strictly increasing with exactly the set's members |
| Search.Dispatch | api/apps/organization/services/busines.py:240-273 | a geo request goes to geo search; otherwise the first truthy field among building, name and activity picks the strategy, and none picks the full listing |
| Search.SearchByBuilding | api/apps/organization/services/busines.py:112-130 | result rows are distinct and are exactly the organizations whose building address contains the text, ignoring case |
| Search.BuildingSearchInTableOrder | api/apps/organization/services/busines.py:125-129 | with distinct rows the result is the matching organizations in table order |
| Search.SearchByName | api/apps/organization/services/busines.py:172-193 | result rows are distinct and are exactly the organizations whose name contains the text and, for an all-digit text, whose id also equals it |
| Search.NameSearchInTableOrder | api/apps/organization/services/busines.py:185-192 | with distinct rows the result is the matching organizations in table order |
| Search.PrimaryKeySearchesInTableOrder | api/apps/organization/models.py:14 | with distinct organization ids, the building and name searches return the matching organizations in table order |
| Search.JoinedRows | api/apps/organization/services/busines.py:153-165 | an organization contributes join rows iff it is linked to an activity whose name contains the text |
| Search.MatchedActivityRows | api/apps/organization/services/busines.py:147-151 | the digit branch pairs organizations with at least one activity row iff some activity has that id or a name containing the digits |
| Search.SearchByActivity | api/apps/organization/services/busines.py:133-169 | for a non-digit text, exactly the organizations linked to an activity whose name contains it; for an all-digit text, every organization when some activity matches by id or name, none otherwise; rows distinct |
| Search.ActivitySearchInTableOrder | api/apps/organization/services/busines.py:147-168 | with distinct rows the non-digit result is the linked organizations in table order and the digit result is the whole table or nothing |
| Search.SearchByGeo | api/apps/organization/services/busines.py:211-237 | fails iff some organization lacks its building; otherwise returns exactly the organizations within the radius |
| Search.FirstWithoutBuilding | api/apps/organization/services/busines.py:227-235 | the reported organization is one whose building is missing |
| Search.GeoSearchMonotone | api/apps/organization/services/busines.py:227-235 | a wider radius never drops an organization |
| Search.Run | api/apps/organization/services/busines.py:195-208 | only geo search can fail, and the full listing returns the table as is |
| Search.SearchOrganizations | api/apps/organization/services/busines.py:240-273 | text requests never fail, and every returned row is a stored organization |
| Requests.NonNoneFields | api/apps/organization/schemas.py:21-23 | each of the four field names is collected iff that field is given, and no other name is collected |
| Requests.CheckExactlyOneFieldIsNotNone | api/apps/organization/schemas.py:19-29 | a request passes iff no two parameters are given, passes unchanged, and fails with status 400 |
| Requests.ValidationIsIdempotent | api/apps/organization/schemas.py:19-29 | validating an accepted request again accepts it again |
| Requests.ValidatedDispatchIgnoresOrder | api/apps/organization/schemas.py:19-29 | after validation the strategy is determined by the one given field alone |
| Requests.UnvalidatedDispatchPrefersEarlierField | api/apps/organization/services/busines.py:260-271 | without validation a request with a name and an activity runs the name search, and the validator rejects it |
| Assembly.Serialize | api/apps/organization/services/busines.py:34-52 | one organization serializes iff its building exists and its phone is set; a missing building is reported before a NULL phone; the record copies id, name, building and phone and shows the activity forest of its assignments |
| Assembly.FirstUnserializable | api/apps/organization/services/busines.py:34-52 | the position found is the first organization that cannot be serialized |
| Assembly.SerializeList | api/apps/organization/services/busines.py:24-53 | the list serializes iff every organization does, with one record per organization |
| Assembly.SerializeListPointwise | api/apps/organization/services/busines.py:34-52 | each record of a serialized list is the serialization of the organization at the same position |
| Assembly.SerializeListFirstError | api/apps/organization/services/busines.py:34-52 | a failed list reports the error of the first organization that cannot be serialized |
| Assembly.RecordTreeCoversAssignments | api/apps/organization/services/busines.py:34-49 | on a consistent table a record's activity forest shows every assigned activity and only stored activities |
| Assembly.FirstWithId | api/apps/organization/services/busines.py:283-291 | `first()` finds nothing iff no row has the id, and otherwise the earliest row with it |
| Assembly.GetOrganizationById | api/apps/organization/services/busines.py:276-305 | an unknown id fails, a found record has the requested id, and with distinct ids it is the serialization of that organization |
| Assembly.GetOrganizations | api/apps/organization/services/busines.py:240-273 | the response succeeds iff the search succeeds and all found organizations serialize, with one record per found organization in order |
| Assembly.CompleteDatabaseAnswersEveryQuery | api/apps/organization/services/busines.py:24-53 | when every organization has its building and a phone, every request is answered |
| Assembly.NullPhoneBreaksListing | api/apps/organization/models.py:19 | one organization with a NULL phone makes the unfiltered listing fail |
| Scenarios.ActivitySearchSkipsDescendants | api/apps/organization/services/busines.py:153-165 | searching a parent activity's name does not return an organization assigned only its child |
| Scenarios.ChildActivityShownUnderParent | api/apps/organization/services/busines.py:63-109 | an organization assigned only a child activity is shown the parent with that child beneath it |
| Scenarios.ZeroIdBypassesDepthCap | api/apps/organization/models.py:49-56 | checked inserts from an empty table build a chain of four activities when the third has id 0, whose depth reads as 0 |
| Scenarios.NameSearchNeedsIdAndName | api/apps/organization/services/busines.py:185-188 | an all-digit name query finds nothing when the organization with that id lacks the digits in its name |

## Left out

- Database sessions, `async`/`await`, eager loading (`selectinload`) and the
  explicit re-load of an unloaded parent (busines.py:66-74) are not modelled.
  The model assumes that every access to `activity.parent` returns the stored
  parent row. The eager loads at busines.py:121-123 reach one parent level
  only, and under an async session the `activity.parent is None` test at
  busines.py:66 is itself a lazy load, which the source does not guard.
- The HTTP view that builds the request object and calls the service
  (`apps/organization/views.py`) is not part of this model; `Requests.ToQuery`
  stands for the hand-off. Routing, settings, logging, fixture loading and
  token checking are left out as plumbing.
- `busines.py` imports `GetOrganizationsRequestSchema` and
  `GetOrganizationsByGeoRequestSchema`, which `schemas.py` does not define;
  the model takes the geo request to carry a latitude, a longitude and a
  radius, and the text request to carry the three text fields.
- Search.SearchByGeo: the geodesic distance (geopy, floating point) is a
  function parameter, and coordinates are `real`; no property of the
  ellipsoid is modelled.
- Text.ContainsIgnoreCase: `ILIKE` is modelled with ASCII case folding only,
  and `%` or `_` inside the user's text are treated as ordinary characters,
  whereas the database treats them as wildcards; Unicode case folding is
  not modelled.
- Text.IsDigits: Python's `str.isdigit` also accepts non-ASCII digits; the
  model accepts only `0`-`9`.
- The order of rows returned by SQL without `ORDER BY` is unspecified; the
  model lists organizations in table order and activity roots and children
  in ascending id order.
- Every function over the activity hierarchy requires `Acyclic`: on a cycle
  the source recurses until Python raises `RecursionError`, a server error. `ActivityDepth.HierarchyStaysCapped`
  shows that checked inserts never create one; the insert as written does
  (see "## Findings"), and updates of `parent_id` bypass the guard and are
  not modelled.
- ActivityDepth.InsertActivity: checks each row against the table as left by
  the previous insert, so it models a flush of one row. The listener is a
  `before_insert` mapper event (models.py:59), which SQLAlchemy runs for every
  row of a flush before that flush writes any of them. Rows flushed together
  are each checked against the table as it was before the flush, so a parent
  added in the same flush reads as an absent row of depth 1. The depth bound
  of `ActivityDepth.ApplyInserts` and `ActivityDepth.HierarchyStaysCapped`
  holds for one-row flushes only; batched flushes are not modelled.
- ActivityDepth.ApplyInserts: promises that every row's computed depth is at
  most 3, not that nesting is at most three levels, because the depth walk
  stops at a row with id 0 and a chain through such a row can be four rows
  deep (`Scenarios.ZeroIdBypassesDepthCap`); `ActivityDepth.CappedLevels`
  gives the nesting bound for tables without id 0.
- ActivityDepth.HierarchyStaysCapped: the same bound on computed depth, not
  on nesting, for the same reason.
- Column widths (`String(255)`, `String(12)`, `String(500)`) and the
  32-bit `Integer` range are not enforced; ids are natural numbers.
- The exceptions raised for a missing organization, a missing building or a
  NULL phone (an attribute access on `None`, a schema validation error) are
  modelled as `Fault` values, not as their exception classes or messages;
  the depth error message is likewise reduced to `DepthExceeded`.
- The model follows the code where it does less than the docstrings say.
  The building search matches the address only, although its docstring
  (busines.py:116) offers a search by building id. The all-digit activity
  search has no join, so it returns every organization or none, although its
  docstring (busines.py:137) offers a search by activity id. An all-digit
  name query requires both the id and the name to match, because the `or_`
  closes after its first argument, although its docstring (busines.py:176)
  offers a search by name or id. The activity search matches the assigned
  activity's own name and does not reach descendant activities.
  `max_depth` counts rows on the path, so a parent at depth 3 cannot take a
  child.

## Findings

| source | as written | input that shows it | evidently intended | confidence | as-written member | corrected member |
|---|---|---|---|---|---|---|
| api/apps/organization/models.py:38-59 | the guard reads a parent id with no stored row as depth 1, and the self-referencing foreign key on `parent_id` is satisfied by the row being inserted | an empty table; insert activity 5 with `parent_id` 5 | the activity hierarchy stays acyclic, so the recursive depth and tree walks end without `RecursionError` | medium, not executed | ActivityDepth.SelfParentInsertMakesCycle | ActivityDepth.CheckedInsert |

=== FILE: activities.dfy ===
/** The `activities` table: rows `id -> (name, parent_id)` whose `parent`
    relationship loads the row named by `parent_id`, and whose `children`
    relationship is its inverse. */
module Activities {
  import opened Base

  datatype Activity = Activity(name: string, parent: Option<Id>)

  type Store = map<Id, Activity>

  /** The row that `activity.parent` loads: the parent named by `parent_id`
      when that row exists, nothing for a NULL or dangling `parent_id`. */
  function StoredParent(store: Store, x: Id): (r: Option<Id>)
    ensures r.Some? <==> x in store && store[x].parent.Some? && store[x].parent.value in store
    ensures r.Some? ==> store[x].parent == r
  {
    if x in store && store[x].parent.Some? && store[x].parent.value in store then store[x].parent else None
  }

  /** `rank` strictly decreases along every loaded parent link. */
  ghost predicate RankedBy(store: Store, rank: map<Id, nat>)
  {
    && store.Keys <= rank.Keys
    && forall x :: x in store && StoredParent(store, x).Some? ==> rank[StoredParent(store, x).value] < rank[x]
  }

  /** No chain of parent links returns to where it started. */
  ghost predicate Acyclic(store: Store)
  {
    exists rank :: RankedBy(store, rank)
  }

  /** One fixed ranking of an acyclic store; it justifies every walk over parent links. */
  ghost function Rank(store: Store): (rank: map<Id, nat>)
    requires Acyclic(store)
    ensures RankedBy(store, rank)
  {
    var rank :| RankedBy(store, rank);
    rank
  }

  /** The termination measure of upward walks: the rank of a stored row, 0 otherwise. */
  ghost function Height(store: Store, x: Id): nat
    requires Acyclic(store)
  {
    if x in store then Rank(store)[x] else 0
  }

  /** The foreign key `activities.parent_id -> activities.id`: every non-NULL parent id names a row. */
  predicate NoDangling(store: Store)
  {
    forall x :: x in store && store[x].parent.Some? ==> store[x].parent.value in store
  }

  lemma EmptyStoreIsWellFormed()
    ensures Acyclic(map[])
    ensures NoDangling(map[])
  {
    assert RankedBy(map[], map[]);
  }

  /** The ids visited by walking the `parent` relationship up from `x`, `x` included. */
  function Ancestors(store: Store, x: Id): (r: set<Id>)
    requires Acyclic(store)
    ensures x in r
    decreases Height(store, x)
  {
    {x} + match StoredParent(store, x)
          case None => {}
          case Some(p) => Ancestors(store, p)
  }

  /** Every proper ancestor is a stored row of strictly smaller rank. */
  lemma {:induction false} AncestorsBelow(store: Store, x: Id, y: Id)
    requires Acyclic(store)
    requires y in Ancestors(store, x)
    ensures y == x || (x in store && y in store && Rank(store)[y] < Rank(store)[x])
    decreases Height(store, x)
  {
    if y != x {
      var p := StoredParent(store, x).value;
      AncestorsBelow(store, p, y);
    }
  }

  /** Parent links never lead back: a row is not among its parent's ancestors. */
  lemma NotOwnAncestor(store: Store, x: Id)
    requires Acyclic(store)
    requires StoredParent(store, x).Some?
    ensures x !in Ancestors(store, StoredParent(store, x).value)
  {
    var p := StoredParent(store, x).value;
    if x in Ancestors(store, p) {
      AncestorsBelow(store, p, x);
    }
  }

  /** The ancestors of an ancestor are ancestors. */
  lemma {:induction false} AncestorsTransitive(store: Store, x: Id, y: Id)
    requires Acyclic(store)
    requires y in Ancestors(store, x)
    ensures Ancestors(store, y) <= Ancestors(store, x)
    decreases Height(store, x)
  {
    if y != x {
      AncestorsTransitive(store, StoredParent(store, x).value, y);
    }
  }

  /** In a well-formed store every upward walk ends at a row whose `parent_id` is NULL. */
  lemma {:induction false} TopOf(store: Store, x: Id) returns (t: Id)
    requires Acyclic(store) && NoDangling(store)
    requires x in store
    ensures t in Ancestors(store, x) && t in store && store[t].parent.None?
    decreases Height(store, x)
  {
    match StoredParent(store, x)
    case None =>
      t := x;
    case Some(p) =>
      t := TopOf(store, p);
  }
}

=== FILE: activity_depth.dfy ===
/** The insert-time depth guard on activities: `_get_activity_depth` and the
    `before_insert` listener `restrict_activity_depth`, together with the
    database's own checks on the new row (primary key, parent foreign key). */
module ActivityDepth {
  import opened Base
  import opened Activities

  /** `max_depth`: a parent already this deep cannot take another child. */
  const MaxDepth: nat := 3

  /** Python truthiness of an optional id: `None` and `0` are false. */
  predicate Truthy(id: Option<Id>)
  {
    id.Some? && id.value != 0
  }

  /** `_get_activity_depth`: 0 for a falsy id, otherwise one more than the
      depth of the stored `parent_id`, or 1 when that is falsy or the row is
      absent (the `scalar()` of an empty result is `None`). */
  function Depth(store: Store, id: Option<Id>): (d: nat)
    requires Acyclic(store)
    ensures !Truthy(id) <==> d == 0
    ensures Truthy(id) && id.value !in store ==> d == 1
    decreases if id.Some? && id.value in store then Height(store, id.value) + 1 else 0
  {
    if !Truthy(id) then 0
    else
      var parent := if id.value in store then store[id.value].parent else None;
      if Truthy(parent) then 1 + Depth(store, parent) else 1
  }

  /** Depth counts the rows on the path to the root: in a store whose parent
      ids all name rows and whose ids are positive, the depth of a row is the
      number of ancestors (itself included) that the tree builder collects. */
  lemma {:induction false} DepthCountsAncestors(store: Store, x: Id)
    requires Acyclic(store) && NoDangling(store)
    requires 0 !in store
    requires x in store
    ensures Depth(store, Some(x)) == |Ancestors(store, x)|
    decreases Height(store, x)
  {
    match StoredParent(store, x)
    case None =>
      assert Ancestors(store, x) == {x};
    case Some(p) =>
      DepthCountsAncestors(store, p);
      NotOwnAncestor(store, x);
      assert Ancestors(store, x) == {x} + Ancestors(store, p);
  }

  datatype InsertError =
    | DepthExceeded   // `InvalidRequestError` raised by the listener
    | DuplicateId     // primary-key violation on `activities.id`
    | MissingParent   // foreign-key violation on `activities.parent_id`
    | SelfParent      // a row naming itself as parent (refused only by `CheckedInsert`)

  /** `restrict_activity_depth`: a row with a parent is refused when the
      parent's depth has already reached `MaxDepth`. */
  function RestrictActivityDepth(store: Store, parent: Option<Id>): (r: Outcome<InsertError>)
    requires Acyclic(store)
    ensures parent.None? ==> r.Pass?
    ensures r.Fail? ==> r.error == DepthExceeded
    ensures r.Pass? <==> parent.None? || Depth(store, parent) < MaxDepth
  {
    if parent.Some? && Depth(store, parent) >= MaxDepth then Fail(DepthExceeded) else Pass
  }

  /** The parent foreign key as the database checks it: after the new row is
      written, so a `parent_id` equal to the row's own id is satisfied. */
  predicate ParentKeyHolds(store: Store, id: Id, parent: Option<Id>)
  {
    parent.None? || parent.value in store || parent.value == id
  }

  /** Inserting an activity row as the code does it: the listener runs first,
      then the database enforces the primary key and the parent foreign key. */
  function InsertActivity(store: Store, id: Id, name: string, parent: Option<Id>): (r: Result<Store, InsertError>)
    requires Acyclic(store)
    ensures r.Ok? ==> id !in store && r.value == store[id := Activity(name, parent)]
    ensures r.Ok? ==> parent.None? || (Depth(store, parent) < MaxDepth && (parent.value in store || parent.value == id))
    ensures r.Err? && r.error == DepthExceeded <==> parent.Some? && Depth(store, parent) >= MaxDepth
    ensures r.Err? && r.error == MissingParent <==>
      RestrictActivityDepth(store, parent).Pass? && id !in store && !ParentKeyHolds(store, id, parent)
    ensures r.Err? && r.error == DuplicateId <==> RestrictActivityDepth(store, parent).Pass? && id in store
    ensures r.Ok? <==> RestrictActivityDepth(store, parent).Pass? && id !in store && ParentKeyHolds(store, id, parent)
    ensures r.Err? ==> r.error != SelfParent
  {
    if RestrictActivityDepth(store, parent).Fail? then Err(DepthExceeded)
    else if id in store then Err(DuplicateId)
    else if !ParentKeyHolds(store, id, parent) then Err(MissingParent)
    else Ok(store[id := Activity(name, parent)])
  }

  /** A new row that names itself as parent passes the guard (its depth is
      that of an absent row) and the foreign key, and the table it leaves has
      a cycle: no ranking of it exists. */
  lemma SelfParentInsertMakesCycle(store: Store, id: Id, name: string)
    requires Acyclic(store)
    requires id !in store
    ensures InsertActivity(store, id, name, Some(id)).Ok?
    ensures !Acyclic(InsertActivity(store, id, name, Some(id)).value)
  {
    var s2 := store[id := Activity(name, Some(id))];
    assert Depth(store, Some(id)) <= 1;
    assert StoredParent(s2, id) == Some(id);
    forall rank
      ensures !RankedBy(s2, rank)
    {
    }
  }

  /** The insert with the evident intent of the guard: as `InsertActivity`,
      but a row naming itself as parent is refused. */
  function CheckedInsert(store: Store, id: Id, name: string, parent: Option<Id>): (r: Result<Store, InsertError>)
    requires Acyclic(store)
    ensures r.Ok? ==> id !in store && r.value == store[id := Activity(name, parent)]
    ensures r.Ok? ==> parent.None? || (parent.value in store && Depth(store, parent) < MaxDepth)
    ensures r.Err? && r.error == SelfParent <==> parent == Some(id) && InsertActivity(store, id, name, parent).Ok?
    ensures parent != Some(id) ==> r == InsertActivity(store, id, name, parent)
    ensures !(r.Err? && r.error == SelfParent) ==> r == InsertActivity(store, id, name, parent)
    ensures r.Ok? <==>
      && RestrictActivityDepth(store, parent).Pass?
      && id !in store
      && (parent.None? || parent.value in store)
  {
    match InsertActivity(store, id, name, parent)
    case Err(e) => Err(e)
    case Ok(next) => if parent == Some(id) then Err(SelfParent) else Ok(next)
  }

  /** An accepted insert keeps the store acyclic and free of dangling parents. */
  lemma InsertPreservesWellFormed(store: Store, id: Id, name: string, parent: Option<Id>)
    requires Acyclic(store) && NoDangling(store)
    requires CheckedInsert(store, id, name, parent).Ok?
    ensures Acyclic(CheckedInsert(store, id, name, parent).value)
    ensures NoDangling(CheckedInsert(store, id, name, parent).value)
  {
    var s2 := CheckedInsert(store, id, name, parent).value;
    var rank := Rank(store);
    var rank2 := rank[id := if parent.Some? then rank[parent.value] + 1 else 0];
    forall x | x in s2 && StoredParent(s2, x).Some?
      ensures rank2[StoredParent(s2, x).value] < rank2[x]
    {
      var q := StoredParent(s2, x).value;
      if x != id {
        assert store[x].parent == Some(q);
        assert StoredParent(store, x) == Some(q);
      }
    }
    assert RankedBy(s2, rank2);
  }

  /** Rows of `store` keep their depth in any larger store that agrees with it on them. */
  lemma {:induction false} DepthFrame(store: Store, s2: Store, x: Option<Id>)
    requires Acyclic(store) && NoDangling(store) && Acyclic(s2)
    requires forall y :: y in store ==> y in s2 && s2[y] == store[y]
    requires Truthy(x) ==> x.value in store
    ensures Depth(s2, x) == Depth(store, x)
    decreases if x.Some? && x.value in store then Height(store, x.value) + 1 else 0
  {
    if Truthy(x) {
      var parent := store[x.value].parent;
      if Truthy(parent) {
        assert StoredParent(store, x.value) == parent;
        DepthFrame(store, s2, parent);
      }
    }
  }

  /** An accepted child with a nonzero id sits one level below its parent;
      every accepted child is at depth at most `MaxDepth`, and every row
      already present keeps its depth. */
  lemma AcceptedInsertDepth(store: Store, id: Id, name: string, parent: Option<Id>)
    requires Acyclic(store) && NoDangling(store)
    requires CheckedInsert(store, id, name, parent).Ok?
    ensures CheckedInsert(store, id, name, parent).value.Keys == store.Keys + {id}
    ensures Acyclic(CheckedInsert(store, id, name, parent).value)
    ensures id != 0 ==> Depth(CheckedInsert(store, id, name, parent).value, Some(id)) == 1 + Depth(store, parent)
    ensures Depth(CheckedInsert(store, id, name, parent).value, Some(id)) <= MaxDepth
    ensures forall x :: x in store ==>
      Depth(CheckedInsert(store, id, name, parent).value, Some(x)) == Depth(store, Some(x))
  {
    var s2 := CheckedInsert(store, id, name, parent).value;
    InsertPreservesWellFormed(store, id, name, parent);
    DepthFrame(store, s2, parent);
    forall x | x in store
      ensures Depth(s2, Some(x)) == Depth(store, Some(x))
    {
      DepthFrame(store, s2, Some(x));
    }
  }

  /** The hierarchy invariant: acyclic, parent foreign key respected, and no
      row whose `Depth` exceeds `MaxDepth`. */
  ghost predicate Capped(store: Store)
  {
    && Acyclic(store)
    && NoDangling(store)
    && forall x :: x in store ==> Depth(store, Some(x)) <= MaxDepth
  }

  /** While no row has id 0, the cap on `Depth` is a cap on nesting: no path
      to a root holds more than `MaxDepth` rows. */
  lemma CappedLevels(store: Store)
    requires Capped(store)
    requires 0 !in store
    ensures forall x :: x in store ==> |Ancestors(store, x)| <= MaxDepth
  {
    forall x | x in store
      ensures |Ancestors(store, x)| <= MaxDepth
    {
      DepthCountsAncestors(store, x);
    }
  }

  /** One attempted insert of a new activity row. */
  datatype InsertRequest = InsertRequest(id: Id, name: string, parent: Option<Id>)

  /** Attempting a sequence of checked inserts one after another; a refused
      insert leaves the store as it was. */
  function ApplyInserts(store: Store, requests: seq<InsertRequest>): (r: Store)
    requires Capped(store)
    ensures Capped(r)
    ensures store.Keys <= r.Keys
    decreases |requests|
  {
    if |requests| == 0 then store
    else
      var q := requests[0];
      match CheckedInsert(store, q.id, q.name, q.parent)
      case Err(_) => ApplyInserts(store, requests[1..])
      case Ok(next) =>
        AcceptedInsertDepth(store, q.id, q.name, q.parent);
        InsertPreservesWellFormed(store, q.id, q.name, q.parent);
        assert Capped(next);
        ApplyInserts(next, requests[1..])
  }

  /** One accepted insert at the head of the sequence: the table it yields is
      capped, and the remaining requests run from there. */
  lemma ApplyInsertsStep(store: Store, requests: seq<InsertRequest>)
    requires Capped(store)
    requires |requests| > 0
    requires CheckedInsert(store, requests[0].id, requests[0].name, requests[0].parent).Ok?
    ensures var next := CheckedInsert(store, requests[0].id, requests[0].name, requests[0].parent).value;
            && Capped(next)
            && ApplyInserts(store, requests) == ApplyInserts(next, requests[1..])
  {
    var q := requests[0];
    AcceptedInsertDepth(store, q.id, q.name, q.parent);
    InsertPreservesWellFormed(store, q.id, q.name, q.parent);
  }

  /** Starting from an empty table, no sequence of checked inserts ever
      produces a cycle, a dangling parent, or a row whose `Depth` exceeds `MaxDepth`. */
  lemma HierarchyStaysCapped(requests: seq<InsertRequest>)
    ensures Capped(map[])
    ensures Capped(ApplyInserts(map[], requests))
  {
    EmptyStoreIsWellFormed();
  }
}

=== FILE: activity_tree.dfy ===
/** `__build_activity_tree_for_org`: the activity forest shown for one
    organization. The closure `S` of its assigned activities under the
    `parent` relationship is collected first; the roots are the rows of `S`
    whose `parent_id` is NULL (or, when there are none, the rows of `S` that
    are not assigned); each root is then expanded into its children that lie
    in `S`. */
module ActivityTree {
  import opened Base
  import opened Seqs
  import opened Activities

  /** `ActivityTreeSchema`: `id`, `name` and the list of child trees. */
  datatype ActivityTree = ActivityTree(id: Id, name: string, children: seq<ActivityTree>)

  /** Every id of a tree, the root included. */
  function Nodes(t: ActivityTree): set<Id>
    decreases t
  {
    {t.id} + ForestNodes(t.children)
  }

  function ForestNodes(ts: seq<ActivityTree>): set<Id>
    decreases ts
  {
    if |ts| == 0 then {} else Nodes(ts[0]) + ForestNodes(ts[1..])
  }

  lemma {:induction false} ForestNodesMember(ts: seq<ActivityTree>, y: Id)
    ensures y in ForestNodes(ts) <==> exists i :: 0 <= i < |ts| && y in Nodes(ts[i])
    decreases |ts|
  {
    if |ts| > 0 {
      ForestNodesMember(ts[1..], y);
      if y in ForestNodes(ts[1..]) {
        var i :| 0 <= i < |ts[1..]| && y in Nodes(ts[1..][i]);
        assert y in Nodes(ts[i + 1]);
      }
      forall i | 0 < i < |ts| && y in Nodes(ts[i])
        ensures y in ForestNodes(ts[1..])
      {
        assert ts[1..][i - 1] == ts[i];
      }
    }
  }

  /** `S` contains the loaded parent of each of its members. */
  ghost predicate ParentClosed(store: Store, s: set<Id>)
  {
    forall x :: x in s && StoredParent(store, x).Some? ==> StoredParent(store, x).value in s
  }

  lemma {:induction false} AncestorsClosed(store: Store, x: Id)
    requires Acyclic(store)
    ensures ParentClosed(store, Ancestors(store, x))
    decreases Height(store, x)
  {
    match StoredParent(store, x)
    case None =>
    case Some(p) =>
      AncestorsClosed(store, p);
  }

  lemma {:induction false} AncestorsWithin(store: Store, s: set<Id>, x: Id)
    requires Acyclic(store)
    requires ParentClosed(store, s) && x in s
    ensures Ancestors(store, x) <= s
    decreases Height(store, x)
  {
    match StoredParent(store, x)
    case None =>
    case Some(p) =>
      AncestorsWithin(store, s, p);
  }

  /** The loop over `activities` calling `_collect_parents`: each assigned id
      and every ancestor reached through the `parent` relationship. */
  function Closure(store: Store, assignedIds: seq<Id>): (s: set<Id>)
    requires Acyclic(store)
    ensures forall a :: a in assignedIds ==> a in s
    ensures ParentClosed(store, s)
    ensures |assignedIds| == 0 ==> s == {}
    decreases |assignedIds|
  {
    if |assignedIds| == 0 then {}
    else
      var last := assignedIds[|assignedIds| - 1];
      AncestorsClosed(store, last);
      Closure(store, assignedIds[..|assignedIds| - 1]) + Ancestors(store, last)
  }

  /** The closure is the least parent-closed set holding every assigned id. */
  lemma {:induction false} ClosureIsLeast(store: Store, assignedIds: seq<Id>, t: set<Id>)
    requires Acyclic(store)
    requires forall a :: a in assignedIds ==> a in t
    requires ParentClosed(store, t)
    ensures Closure(store, assignedIds) <= t
    decreases |assignedIds|
  {
    if |assignedIds| > 0 {
      ClosureIsLeast(store, assignedIds[..|assignedIds| - 1], t);
      AncestorsWithin(store, t, assignedIds[|assignedIds| - 1]);
    }
  }

  /** The rows of `S` whose `parent_id` is NULL. */
  function NullParentRows(store: Store, s: set<Id>): (r: set<Id>)
    ensures forall x :: x in r <==> x in s && x in store && store[x].parent.None?
  {
    set x | x in s && x in store && store[x].parent.None?
  }

  /** `root_ids`: the NULL-parent rows of `S`, or else the rows of `S` that are not assigned. */
  function RootIds(store: Store, assignedIds: seq<Id>, s: set<Id>): (r: set<Id>)
    ensures r <= s && r <= store.Keys
    ensures NullParentRows(store, s) != {} ==> r == NullParentRows(store, s)
    ensures NullParentRows(store, s) == {} ==>
      forall x :: x in r <==> x in s && x in store && x !in assignedIds
  {
    var nulls := NullParentRows(store, s);
    if nulls != {} then nulls
    else (s - set a | a in assignedIds) * store.Keys
  }

  /** The children of `x` that `_build_tree` keeps: rows whose `parent_id` is `x` and that lie in `S`. */
  function ChildrenIn(store: Store, s: set<Id>, x: Id): (r: set<Id>)
    ensures forall c :: c in r <==> c in s && c in store && store[c].parent == Some(x)
  {
    set c | c in s && c in store && store[c].parent == Some(x)
  }

  /** The rows that rank above `x`. */
  ghost function RankedAbove(store: Store, x: Id): set<Id>
    requires Acyclic(store)
  {
    set y | y in store && Height(store, y) > Height(store, x)
  }

  /** The termination measure of downward walks: how many rows rank above `x`. */
  ghost function Below(store: Store, x: Id): nat
    requires Acyclic(store)
  {
    |RankedAbove(store, x)|
  }

  lemma BelowShrinks(store: Store, x: Id, c: Id)
    requires Acyclic(store)
    requires StoredParent(store, c) == Some(x)
    ensures Below(store, c) < Below(store, x)
  {
    var above := RankedAbove(store, x);
    var aboveC := RankedAbove(store, c);
    assert Height(store, c) > Height(store, x);
    assert c in above;
    assert aboveC <= above - {c};
    SubsetSize(aboveC, above - {c});
    assert |above - {c}| == |above| - 1;
  }

  /** `_build_tree`: the node for `x` with, in ascending id order, the trees of its children in `S`. */
  function Build(store: Store, s: set<Id>, x: Id): (t: ActivityTree)
    requires Acyclic(store)
    requires x in store
    ensures t.id == x && t.name == store[x].name
    decreases Below(store, x)
  {
    var kids := Ascending(ChildrenIn(store, s, x));
    ActivityTree(x, store[x].name,
      seq(|kids|, i requires 0 <= i < |kids| =>
        assert kids[i] in ChildrenIn(store, s, x);
        BelowShrinks(store, x, kids[i]);
        Build(store, s, kids[i])))
  }

  /** `__build_activity_tree_for_org` for an organization whose assigned activity ids are `assignedIds`. */
  function BuildForest(store: Store, assignedIds: seq<Id>): (f: seq<ActivityTree>)
    requires Acyclic(store)
    ensures |assignedIds| == 0 ==> f == []
  {
    var s := Closure(store, assignedIds);
    var roots := Ascending(RootIds(store, assignedIds, s));
    seq(|roots|, i requires 0 <= i < |roots| => Build(store, s, roots[i]))
  }

  /** The ids of a node's children, in order. */
  function ChildIds(t: ActivityTree): seq<Id>
  {
    seq(|t.children|, i requires 0 <= i < |t.children| => t.children[i].id)
  }

  /** A tree mirrors the store: each node is a row of `S` with the row's name, and
      its children are exactly its child rows in `S`, in ascending id order. */
  ghost predicate Mirrors(store: Store, s: set<Id>, t: ActivityTree)
    decreases t
  {
    && t.id in s && t.id in store
    && t.name == store[t.id].name
    && StrictlyIncreasing(ChildIds(t))
    && (forall c :: c in ChildIds(t) <==> c in ChildrenIn(store, s, t.id))
    && (forall i :: 0 <= i < |t.children| ==> Mirrors(store, s, t.children[i]))
  }

  lemma {:induction false} BuildMirrors(store: Store, s: set<Id>, x: Id)
    requires Acyclic(store)
    requires x in store && x in s
    ensures Mirrors(store, s, Build(store, s, x))
    decreases Below(store, x)
  {
    var t := Build(store, s, x);
    var kids := Ascending(ChildrenIn(store, s, x));
    assert ChildIds(t) == kids;
    forall i | 0 <= i < |t.children|
      ensures Mirrors(store, s, t.children[i])
    {
      assert kids[i] in ChildrenIn(store, s, x);
      BelowShrinks(store, x, kids[i]);
      BuildMirrors(store, s, kids[i]);
    }
  }

  /** Walking up from `y` to its ancestor `x` passes through a child of `x`. */
  lemma {:induction false} ChildOnPath(store: Store, x: Id, y: Id) returns (c: Id)
    requires Acyclic(store)
    requires x in Ancestors(store, y) && x != y
    ensures StoredParent(store, c) == Some(x) && c in Ancestors(store, y)
    decreases Height(store, y)
  {
    var p := StoredParent(store, y).value;
    if p == x {
      c := y;
    } else {
      c := ChildOnPath(store, x, p);
    }
  }

  lemma {:induction false} BuildNodesWithin(store: Store, s: set<Id>, x: Id, y: Id)
    requires Acyclic(store)
    requires x in store && x in s
    requires y in Nodes(Build(store, s, x))
    ensures y in s && y in store && x in Ancestors(store, y)
    decreases Below(store, x)
  {
    var t := Build(store, s, x);
    var kids := Ascending(ChildrenIn(store, s, x));
    ForestNodesMember(t.children, y);
    if y != x {
      var i :| 0 <= i < |t.children| && y in Nodes(t.children[i]);
      var c := kids[i];
      assert c in ChildrenIn(store, s, x);
      assert StoredParent(store, c) == Some(x);
      BelowShrinks(store, x, c);
      BuildNodesWithin(store, s, c, y);
      AncestorsTransitive(store, y, c);
    }
  }

  /** Every child of `x` in `S` is built as one of the children of `x`'s node. */
  lemma BuildChildAt(store: Store, s: set<Id>, x: Id, c: Id) returns (i: nat)
    requires Acyclic(store)
    requires x in store
    requires c in ChildrenIn(store, s, x)
    ensures i < |Build(store, s, x).children|
    ensures c in store && Build(store, s, x).children[i] == Build(store, s, c)
  {
    var kids := Ascending(ChildrenIn(store, s, x));
    assert c in kids;
    i :| 0 <= i < |kids| && kids[i] == c;
  }

  lemma {:induction false} BuildNodesCover(store: Store, s: set<Id>, x: Id, y: Id)
    requires Acyclic(store)
    requires ParentClosed(store, s)
    requires x in store && x in s
    requires y in s && y in store && x in Ancestors(store, y)
    ensures y in Nodes(Build(store, s, x))
    decreases Below(store, x)
  {
    if y != x {
      var t := Build(store, s, x);
      var c := ChildOnPath(store, x, y);
      AncestorsWithin(store, s, y);
      assert c in ChildrenIn(store, s, x);
      var i := BuildChildAt(store, s, x, c);
      BelowShrinks(store, x, c);
      BuildNodesCover(store, s, c, y);
      ForestNodesMember(t.children, y);
    }
  }

  /** The tree built from `x` holds exactly the rows of `S` that have `x` as an ancestor. */
  lemma BuildNodes(store: Store, s: set<Id>, x: Id)
    requires Acyclic(store)
    requires ParentClosed(store, s)
    requires x in store && x in s
    ensures forall y :: y in Nodes(Build(store, s, x)) <==> y in s && y in store && x in Ancestors(store, y)
  {
    forall y
      ensures y in Nodes(Build(store, s, x)) <==> y in s && y in store && x in Ancestors(store, y)
    {
      if y in Nodes(Build(store, s, x)) {
        BuildNodesWithin(store, s, x, y);
      }
      if y in s && y in store && x in Ancestors(store, y) {
        BuildNodesCover(store, s, x, y);
      }
    }
  }

  /** The ids of a forest's roots, in order. */
  function RootIdsOf(f: seq<ActivityTree>): seq<Id>
  {
    seq(|f|, i requires 0 <= i < |f| => f[i].id)
  }

  /** The shape of every forest: its roots are the root ids in ascending order,
      each tree mirrors the store, and no node lies outside `S` or the table. */
  lemma ForestShape(store: Store, assignedIds: seq<Id>)
    requires Acyclic(store)
    ensures var s := Closure(store, assignedIds);
            var f := BuildForest(store, assignedIds);
            && StrictlyIncreasing(RootIdsOf(f))
            && (forall r :: r in RootIdsOf(f) <==> r in RootIds(store, assignedIds, s))
            && (forall i :: 0 <= i < |f| ==> Mirrors(store, s, f[i]))
            && ForestNodes(f) <= s
            && ForestNodes(f) <= store.Keys
  {
    var s := Closure(store, assignedIds);
    var f := BuildForest(store, assignedIds);
    var roots := Ascending(RootIds(store, assignedIds, s));
    assert RootIdsOf(f) == roots;
    forall i | 0 <= i < |f|
      ensures Mirrors(store, s, f[i])
      ensures Nodes(f[i]) <= s && Nodes(f[i]) <= store.Keys
    {
      BuildMirrors(store, s, roots[i]);
      BuildNodes(store, s, roots[i]);
    }
    forall y | y in ForestNodes(f)
      ensures y in s && y in store
    {
      ForestNodesMember(f, y);
    }
  }

  lemma {:induction false} AncestorsAreRows(store: Store, x: Id)
    requires Acyclic(store)
    requires x in store
    ensures Ancestors(store, x) <= store.Keys
    decreases Height(store, x)
  {
    match StoredParent(store, x)
    case None =>
    case Some(p) =>
      AncestorsAreRows(store, p);
  }

  lemma {:induction false} ClosureAreRows(store: Store, assignedIds: seq<Id>)
    requires Acyclic(store)
    requires forall a :: a in assignedIds ==> a in store
    ensures Closure(store, assignedIds) <= store.Keys
    decreases |assignedIds|
  {
    if |assignedIds| > 0 {
      ClosureAreRows(store, assignedIds[..|assignedIds| - 1]);
      AncestorsAreRows(store, assignedIds[|assignedIds| - 1]);
    }
  }

  /** A walk up from `y` meets at most one row whose `parent_id` is NULL. */
  lemma {:induction false} UniqueTop(store: Store, y: Id, r1: Id, r2: Id)
    requires Acyclic(store) && NoDangling(store)
    requires r1 in Ancestors(store, y) && r1 in store && store[r1].parent.None?
    requires r2 in Ancestors(store, y) && r2 in store && store[r2].parent.None?
    ensures r1 == r2
    decreases Height(store, y)
  {
    match StoredParent(store, y)
    case None =>
    case Some(p) =>
      UniqueTop(store, p, r1, r2);
  }

  /** In a consistent table the fallback root choice never fires. */
  lemma NoFallback(store: Store, assignedIds: seq<Id>)
    requires Acyclic(store) && NoDangling(store)
    requires forall a :: a in assignedIds ==> a in store
    requires |assignedIds| > 0
    ensures NullParentRows(store, Closure(store, assignedIds)) != {}
  {
    var s := Closure(store, assignedIds);
    var a := assignedIds[0];
    var t := TopOf(store, a);
    AncestorsWithin(store, s, a);
    assert t in NullParentRows(store, s);
  }

  lemma ForestCoversClosure(store: Store, assignedIds: seq<Id>)
    requires Acyclic(store) && NoDangling(store)
    requires forall a :: a in assignedIds ==> a in store
    ensures Closure(store, assignedIds) <= ForestNodes(BuildForest(store, assignedIds))
  {
    ClosureAreRows(store, assignedIds);
    forall y | y in Closure(store, assignedIds)
      ensures y in ForestNodes(BuildForest(store, assignedIds))
    {
      ClosureMemberInForest(store, assignedIds, y);
    }
  }

  /** A collected activity lies in the tree of the root at the top of its walk. */
  lemma ClosureMemberInForest(store: Store, assignedIds: seq<Id>, y: Id)
    requires Acyclic(store) && NoDangling(store)
    requires Closure(store, assignedIds) <= store.Keys
    requires y in Closure(store, assignedIds)
    ensures y in ForestNodes(BuildForest(store, assignedIds))
  {
    var s := Closure(store, assignedIds);
    var t := TopOf(store, y);
    AncestorsWithin(store, s, y);
    assert t in NullParentRows(store, s);
    BuildNodesCover(store, s, t, y);
    var roots := Ascending(RootIds(store, assignedIds, s));
    var i :| 0 <= i < |roots| && roots[i] == t;
    BuildForestAt(store, assignedIds, i);
    ForestNodesMember(BuildForest(store, assignedIds), y);
  }

  /** The tree at position `i` of the forest is built from the `i`-th root id. */
  lemma BuildForestAt(store: Store, assignedIds: seq<Id>, i: nat)
    requires Acyclic(store)
    requires i < |Ascending(RootIds(store, assignedIds, Closure(store, assignedIds)))|
    ensures var s := Closure(store, assignedIds);
            var roots := Ascending(RootIds(store, assignedIds, s));
            && roots[i] in store
            && |BuildForest(store, assignedIds)| == |roots|
            && BuildForest(store, assignedIds)[i] == Build(store, s, roots[i])
  {
  }

  lemma ForestDisjoint(store: Store, assignedIds: seq<Id>)
    requires Acyclic(store) && NoDangling(store)
    requires forall a :: a in assignedIds ==> a in store
    ensures var f := BuildForest(store, assignedIds);
            forall i, j :: 0 <= i < j < |f| ==> Nodes(f[i]) !! Nodes(f[j])
  {
    var s := Closure(store, assignedIds);
    var f := BuildForest(store, assignedIds);
    var roots := Ascending(RootIds(store, assignedIds, s));
    if |assignedIds| > 0 {
      NoFallback(store, assignedIds);
    }
    forall i, j | 0 <= i < j < |f|
      ensures Nodes(f[i]) !! Nodes(f[j])
    {
      if y :| y in Nodes(f[i]) && y in Nodes(f[j]) {
        BuildNodes(store, s, roots[i]);
        BuildNodes(store, s, roots[j]);
        assert roots[i] in NullParentRows(store, s);
        assert roots[j] in NullParentRows(store, s);
        UniqueTop(store, y, roots[i], roots[j]);
        assert false;
      }
    }
  }

  /** For a consistent table (no cycles, every `parent_id` naming a row) and
      assigned ids that are rows: the fallback root choice never fires, the
      forest holds exactly the closure `S` (so every assigned activity), and
      no id appears in two trees. */
  lemma WellFormedForest(store: Store, assignedIds: seq<Id>)
    requires Acyclic(store) && NoDangling(store)
    requires forall a :: a in assignedIds ==> a in store
    ensures var s := Closure(store, assignedIds);
            var f := BuildForest(store, assignedIds);
            && (|assignedIds| > 0 ==> NullParentRows(store, s) != {})
            && ForestNodes(f) == s
            && (forall a :: a in assignedIds ==> a in ForestNodes(f))
            && (forall i, j :: 0 <= i < j < |f| ==> Nodes(f[i]) !! Nodes(f[j]))
  {
    if |assignedIds| > 0 {
      NoFallback(store, assignedIds);
    }
    ForestShape(store, assignedIds);
    ForestCoversClosure(store, assignedIds);
    ForestDisjoint(store, assignedIds);
  }
}

=== FILE: assembly.dfy ===
/** Response shaping: `__serialize_list_response`, `get_organization_by_id`
    and the entry point `get_organizations`. A missing building row and a
    NULL phone are the two ways a stored organization fails to become an
    `OrganizationResponseSchema`; the building is read first. */
module Assembly {
  import opened Base
  import opened Seqs
  import opened Activities
  import opened ActivityTree
  import opened Organizations
  import opened Search

  /** `BuildingSchema`. */
  datatype BuildingRecord = BuildingRecord(id: Id, address: string, latitude: real, longitude: real)

  /** `OrganizationResponseSchema`. */
  datatype OrganizationRecord = OrganizationRecord(
    id: Id,
    name: string,
    building: BuildingRecord,
    activityTree: seq<ActivityTree>,
    phoneNumber: string)

  /** The stored row carries everything the response schema requires. */
  predicate Serializable(db: Db, o: Organization)
  {
    o.buildingId in db.buildings && o.phone.Some?
  }

  /** One organization of the loop in `__serialize_list_response`. */
  function Serialize(db: Db, o: Organization): (r: Result<OrganizationRecord, Fault>)
    requires Acyclic(db.activities)
    ensures r.Ok? <==> Serializable(db, o)
    ensures r.Err? ==> r.error == (if o.buildingId !in db.buildings then MissingBuilding(o.id) else NullPhone(o.id))
    ensures r.Ok? ==>
      var b := db.buildings[o.buildingId];
      && r.value.id == o.id
      && r.value.name == o.name
      && r.value.building == BuildingRecord(o.buildingId, b.address, b.latitude, b.longitude)
      && r.value.activityTree == BuildForest(db.activities, ActivitiesOf(db, o.id))
      && Some(r.value.phoneNumber) == o.phone
  {
    var tree := BuildForest(db.activities, ActivitiesOf(db, o.id));
    if o.buildingId !in db.buildings then Err(MissingBuilding(o.id))
    else if o.phone.None? then Err(NullPhone(o.id))
    else
      var b := db.buildings[o.buildingId];
      Ok(OrganizationRecord(o.id, o.name, BuildingRecord(o.buildingId, b.address, b.latitude, b.longitude),
                            tree, o.phone.value))
  }

  /** Position of the first organization that cannot be serialized. */
  function FirstUnserializable(db: Db, orgs: seq<Organization>): (i: nat)
    requires exists o :: o in orgs && !Serializable(db, o)
    ensures i < |orgs| && !Serializable(db, orgs[i])
    ensures forall j :: 0 <= j < i ==> Serializable(db, orgs[j])
    decreases |orgs|
  {
    if !Serializable(db, orgs[0]) then 0
    else
      assert exists o :: o in orgs[1..] && !Serializable(db, o) by {
        var o :| o in orgs && !Serializable(db, o);
        assert o != orgs[0];
      }
      1 + FirstUnserializable(db, orgs[1..])
  }

  /** `__serialize_list_response`: one record per organization, in order; the
      first organization that cannot be serialized aborts the whole list. */
  function SerializeList(db: Db, orgs: seq<Organization>): (r: Result<seq<OrganizationRecord>, Fault>)
    requires Acyclic(db.activities)
    ensures r.Ok? <==> forall o :: o in orgs ==> Serializable(db, o)
    ensures r.Ok? ==> |r.value| == |orgs|
    decreases |orgs|
  {
    if |orgs| == 0 then Ok([])
    else match Serialize(db, orgs[0])
      case Err(e) => Err(e)
      case Ok(record) =>
        match SerializeList(db, orgs[1..])
        case Err(e) => Err(e)
        case Ok(rest) => Ok([record] + rest)
  }

  /** Each record of a serialized list is the serialization of the organization at the same position. */
  lemma {:induction false} SerializeListPointwise(db: Db, orgs: seq<Organization>)
    requires Acyclic(db.activities)
    requires SerializeList(db, orgs).Ok?
    ensures forall i :: 0 <= i < |orgs| ==> Serialize(db, orgs[i]) == Ok(SerializeList(db, orgs).value[i])
    decreases |orgs|
  {
    if |orgs| > 0 {
      var rest := SerializeList(db, orgs[1..]);
      SerializeListPointwise(db, orgs[1..]);
      var records := [Serialize(db, orgs[0]).value] + rest.value;
      assert SerializeList(db, orgs).value == records;
      forall i | 0 <= i < |orgs|
        ensures Serialize(db, orgs[i]) == Ok(records[i])
      {
        if i > 0 {
          assert orgs[i] == orgs[1..][i - 1];
          assert records[i] == rest.value[i - 1];
        }
      }
    }
  }

  /** A failed list reports the error of the first organization that cannot be serialized. */
  lemma {:induction false} SerializeListFirstError(db: Db, orgs: seq<Organization>)
    requires Acyclic(db.activities)
    requires SerializeList(db, orgs).Err?
    ensures Err(SerializeList(db, orgs).error) == Serialize(db, orgs[FirstUnserializable(db, orgs)])
    decreases |orgs|
  {
    if Serialize(db, orgs[0]).Ok? {
      SerializeListFirstError(db, orgs[1..]);
      assert orgs[FirstUnserializable(db, orgs)] == orgs[1..][FirstUnserializable(db, orgs[1..])];
    }
  }

  /** The tree shown for an organization contains each of its assigned
      activities, and nothing but stored activities. */
  lemma RecordTreeCoversAssignments(db: Db, o: Organization)
    requires Acyclic(db.activities) && NoDangling(db.activities)
    requires Serialize(db, o).Ok?
    ensures var nodes := ForestNodes(Serialize(db, o).value.activityTree);
            && (forall a :: Link(o.id, a) in db.links && a in db.activities ==> a in nodes)
            && nodes <= db.activities.Keys
  {
    var assignedIds := ActivitiesOf(db, o.id);
    WellFormedForest(db.activities, assignedIds);
    ClosureAreRows(db.activities, assignedIds);
  }

  /** `result.scalars().first()` for `WHERE organizations.id = :id`. */
  function FirstWithId(orgs: seq<Organization>, id: Id): (r: Option<Organization>)
    ensures r.None? <==> forall o :: o in orgs ==> o.id != id
    ensures r.Some? ==> r.value in orgs && r.value.id == id
    ensures r.Some? ==> exists i :: (0 <= i < |orgs| && orgs[i] == r.value &&
      forall j :: 0 <= j < i ==> orgs[j].id != id)
    decreases |orgs|
  {
    if |orgs| == 0 then None
    else if orgs[0].id == id then Some(orgs[0])
    else
      var r := FirstWithId(orgs[1..], id);
      assert r.Some? ==> exists i :: (0 <= i < |orgs| && orgs[i] == r.value &&
        forall j :: 0 <= j < i ==> orgs[j].id != id) by {
        if r.Some? {
          var k :| 0 <= k < |orgs[1..]| && orgs[1..][k] == r.value &&
            forall j :: 0 <= j < k ==> orgs[1..][j].id != id;
          assert orgs[k + 1] == r.value;
          assert forall j :: 0 < j < k + 1 ==> orgs[j] == orgs[1..][j - 1];
        }
      }
      r
  }

  /** `get_organization_by_id`: an unknown id fails (the source dereferences
      `None`); otherwise the row is serialized like a list element. */
  function GetOrganizationById(db: Db, id: Id): (r: Result<OrganizationRecord, Fault>)
    requires Acyclic(db.activities)
    ensures r == Err(NoSuchOrganization(id)) <==> forall o :: o in db.organizations ==> o.id != id
    ensures r.Ok? ==> r.value.id == id && exists o :: o in db.organizations && Serialize(db, o) == r
    ensures DistinctIds(db.organizations) ==>
      forall o :: o in db.organizations && o.id == id ==> r == Serialize(db, o)
  {
    match FirstWithId(db.organizations, id)
    case None => Err(NoSuchOrganization(id))
    case Some(o) => Serialize(db, o)
  }

  /** `get_organizations`: run the chosen search, then serialize its result. */
  function GetOrganizations(db: Db, query: Query, distance: (real, real, real, real) -> real):
    (r: Result<seq<OrganizationRecord>, Fault>)
    requires Acyclic(db.activities)
    ensures r.Ok? <==> (SearchOrganizations(db, query, distance).Ok? &&
      forall o :: o in SearchOrganizations(db, query, distance).value ==> Serializable(db, o))
    ensures r.Ok? ==>
      var found := SearchOrganizations(db, query, distance).value;
      |r.value| == |found| && forall i :: 0 <= i < |found| ==> r.value[i].id == found[i].id
  {
    match SearchOrganizations(db, query, distance)
    case Err(e) => Err(e)
    case Ok(found) =>
      var records := SerializeList(db, found);
      if records.Ok? then SerializeListPointwise(db, found); records else records
  }

  /** Every stored organization has its building and a phone. */
  predicate Complete(db: Db)
  {
    forall o :: o in db.organizations ==> Serializable(db, o)
  }

  /** On a complete database every query, geo included, is answered. */
  lemma CompleteDatabaseAnswersEveryQuery(db: Db, query: Query, distance: (real, real, real, real) -> real)
    requires Acyclic(db.activities) && Complete(db)
    ensures GetOrganizations(db, query, distance).Ok?
  {
  }

  /** A single organization with a NULL phone makes the unfiltered listing fail. */
  lemma NullPhoneBreaksListing(db: Db, o: Organization, distance: (real, real, real, real) -> real)
    requires Acyclic(db.activities)
    requires o in db.organizations && o.phone.None?
    ensures GetOrganizations(db, TextQuery(None, None, None), distance).Err?
  {
  }
}

=== FILE: base.dfy ===
/** Identifiers and the failure-carrying wrappers shared by every module. */
module Base {

  /** Primary keys of every table (activities, buildings, organizations). */
  type Id = nat

  /** A nullable value: `None` stands for SQL NULL / Python `None`. */
  datatype Option<+T> = None | Some(value: T)

  /** The outcome of an operation that either yields a value or fails. */
  datatype Result<+T, +E> = Ok(value: T) | Err(error: E)

  /** The outcome of a check that yields nothing when it passes. */
  datatype Outcome<+E> = Pass | Fail(error: E)
}

=== FILE: organizations.dfy ===
/** The `organizations`, `buildings` and `organization_activities` tables,
    read by the search strategies and the result assembler. */
module Organizations {
  import opened Base
  import opened Seqs
  import opened Activities

  /** A `buildings` row; coordinates are copied, never computed with. */
  datatype Building = Building(address: string, latitude: real, longitude: real)

  /** An `organizations` row. `building_id` is NOT NULL, so every organization
      names a building; `phone` is nullable. */
  datatype Organization = Organization(id: Id, name: string, buildingId: Id, phone: Option<string>)

  /** An `organization_activities` row; the pair of ids is its primary key. */
  datatype Link = Link(organization: Id, activity: Id)

  /** Everything the service reads, as one immutable snapshot. Row order in
      `organizations` and `links` is the order in which queries return them. */
  datatype Db = Db(
    organizations: seq<Organization>,
    buildings: map<Id, Building>,
    activities: Store,
    links: seq<Link>)

  /** Failures that reach the caller of the service. */
  datatype Fault =
    | MissingBuilding(organization: Id)  // `org.building` is None: AttributeError
    | NullPhone(organization: Id)        // `phone_number: str` receives None: ValidationError
    | NoSuchOrganization(id: Id)         // `.first()` is None: AttributeError

  /** The primary key of `organization_activities` refuses a second copy of a pair. */
  datatype LinkError = DuplicateLink

  function AddLink(links: seq<Link>, link: Link): (r: Result<seq<Link>, LinkError>)
    ensures r.Ok? <==> link !in links
    ensures r.Ok? ==> r.value == links + [link]
  {
    if link in links then Err(DuplicateLink) else Ok(links + [link])
  }

  /** Every accepted insert keeps each (organization, activity) pair unique. */
  lemma AddLinkKeepsPairsUnique(links: seq<Link>, link: Link)
    requires NoDuplicates(links)
    requires AddLink(links, link).Ok?
    ensures NoDuplicates(AddLink(links, link).value)
  {
  }

  /** The link rows of organization `org` whose activity exists. */
  function LinksOf(db: Db, org: Id): (r: seq<Link>)
    ensures forall l :: l in r <==> l in db.links && l.organization == org && l.activity in db.activities
  {
    Filter(db.links, (l: Link) => l.organization == org && l.activity in db.activities)
  }

  /** `organization.activities`: the ids of the activities linked to `org`. */
  function ActivitiesOf(db: Db, org: Id): (r: seq<Id>)
    ensures forall a :: a in r <==> Link(org, a) in db.links && a in db.activities
  {
    var ls := LinksOf(db, org);
    var r := seq(|ls|, i requires 0 <= i < |ls| => ls[i].activity);
    assert forall a :: a in r ==> Link(org, a) in ls;
    forall a | Link(org, a) in ls
      ensures a in r
    {
      var i :| 0 <= i < |ls| && ls[i] == Link(org, a);
      assert r[i] == a;
    }
    r
  }

  /** Because of the composite key, an organization's activity list has no repeats. */
  lemma ActivitiesOfDistinct(db: Db, org: Id)
    requires NoDuplicates(db.links)
    ensures NoDuplicates(ActivitiesOf(db, org))
  {
    var ls := LinksOf(db, org);
    FilterKeepsNoDuplicates(db.links, (l: Link) => l.organization == org && l.activity in db.activities);
    assert forall i :: 0 <= i < |ls| ==> ls[i] == Link(org, ls[i].activity);
  }

  /** Organization ids are a primary key. */
  predicate DistinctIds(orgs: seq<Organization>)
  {
    forall i, j :: 0 <= i < j < |orgs| ==> orgs[i].id != orgs[j].id
  }

  lemma DistinctIdsHaveNoDuplicates(orgs: seq<Organization>)
    requires DistinctIds(orgs)
    ensures NoDuplicates(orgs)
  {
  }

  /** The foreign key `organizations.building_id -> buildings.id`. */
  predicate BuildingsPresent(db: Db)
  {
    forall o :: o in db.organizations ==> o.buildingId in db.buildings
  }
}

=== FILE: requests.dfy ===
/** `GetOrganizationRequestSchema` and its `model_validator`
    `check_exactly_one_field_is_not_none`: at most one of the four optional
    query parameters may be non-None. */
module Requests {
  import opened Base
  import opened Search

  datatype Request = Request(
    buildingName: Option<string>,
    organizationName: Option<string>,
    activityName: Option<string>,
    radiusSize: Option<int>)

  datatype HttpError = HttpError(status: nat, detail: string)

  /** The `HTTPException` the validator raises. */
  const TooManyFields: HttpError := HttpError(400, "Максимум одно поле должно быть не None")

  /** `model_dump()` keys whose value `is not None`, in declaration order. */
  function NonNoneFields(req: Request): (names: seq<string>)
    ensures |names| <= 4
    ensures "building_name" in names <==> req.buildingName.Some?
    ensures "organization_name" in names <==> req.organizationName.Some?
    ensures "activity_name" in names <==> req.activityName.Some?
    ensures "radius_size" in names <==> req.radiusSize.Some?
    ensures forall n :: n in names ==> n in {"building_name", "organization_name", "activity_name", "radius_size"}
  {
    (if req.buildingName.Some? then ["building_name"] else [])
    + (if req.organizationName.Some? then ["organization_name"] else [])
    + (if req.activityName.Some? then ["activity_name"] else [])
    + (if req.radiusSize.Some? then ["radius_size"] else [])
  }

  /** No two of the four parameters are both present. */
  ghost predicate AtMostOneGiven(req: Request)
  {
    && !(req.buildingName.Some? && req.organizationName.Some?)
    && !(req.buildingName.Some? && req.activityName.Some?)
    && !(req.buildingName.Some? && req.radiusSize.Some?)
    && !(req.organizationName.Some? && req.activityName.Some?)
    && !(req.organizationName.Some? && req.radiusSize.Some?)
    && !(req.activityName.Some? && req.radiusSize.Some?)
  }

  /** `check_exactly_one_field_is_not_none`: despite its name it also accepts
      a request with no parameter; presence is `is not None`, so an empty
      string counts as given. */
  function CheckExactlyOneFieldIsNotNone(req: Request): (r: Result<Request, HttpError>)
    ensures r.Ok? <==> AtMostOneGiven(req)
    ensures r.Ok? ==> r.value == req
    ensures r.Err? ==> r.error.status == 400
  {
    if |NonNoneFields(req)| > 1 then Err(TooManyFields) else Ok(req)
  }

  /** Validating an accepted request again accepts it again, unchanged. */
  lemma ValidationIsIdempotent(req: Request)
    requires CheckExactlyOneFieldIsNotNone(req).Ok?
    ensures CheckExactlyOneFieldIsNotNone(CheckExactlyOneFieldIsNotNone(req).value) == CheckExactlyOneFieldIsNotNone(req)
  {
  }

  /** The query the view hands to `get_organizations`; `radius_size` is validated but never read. */
  function ToQuery(req: Request): (q: Query)
    ensures q.TextQuery?
    ensures q.buildingName == req.buildingName
    ensures q.organizationName == req.organizationName
    ensures q.activityName == req.activityName
  {
    TextQuery(req.buildingName, req.organizationName, req.activityName)
  }

  /** After validation at most one text filter is present, so the strategy is
      fixed by which field is given, not by the order of the dispatcher's tests. */
  lemma ValidatedDispatchIgnoresOrder(req: Request)
    requires CheckExactlyOneFieldIsNotNone(req).Ok?
    ensures Given(req.buildingName) ==> Dispatch(ToQuery(req)) == ByBuilding(req.buildingName.value)
    ensures Given(req.organizationName) ==> Dispatch(ToQuery(req)) == ByName(req.organizationName.value)
    ensures Given(req.activityName) ==> Dispatch(ToQuery(req)) == ByActivity(req.activityName.value)
    ensures !Given(req.buildingName) && !Given(req.organizationName) && !Given(req.activityName) ==>
      Dispatch(ToQuery(req)) == AllOrganizations
  {
  }

  /** Without validation the first given field wins: a request naming both an
      organization and an activity runs the name search. */
  lemma UnvalidatedDispatchPrefersEarlierField(org: string, activity: string)
    requires |org| > 0 && |activity| > 0
    ensures Dispatch(TextQuery(None, Some(org), Some(activity))) == ByName(org)
    ensures CheckExactlyOneFieldIsNotNone(Request(None, Some(org), Some(activity), None)).Err?
  {
  }
}

=== FILE: scenarios.dfy ===
/** Concrete snapshots that exhibit how the search strategies and the tree
    builder behave as written. */
module Scenarios {
  import opened Base
  import opened Text
  import opened Seqs
  import opened Activities
  import opened ActivityDepth
  import opened ActivityTree
  import opened Organizations
  import opened Search

  /** "Food" (id 1) is the parent of "Bread" (id 2). */
  function FoodStore(): Store
  {
    map[1 := Activity("Food", None), 2 := Activity("Bread", Some(1))]
  }

  /** Organization 1 is assigned "Food", organization 2 only "Bread"; both sit in building 1. */
  function FoodDb(): Db
  {
    Db([Organization(1, "Mart", 1, Some("111")), Organization(2, "Bun", 1, Some("222"))],
       map[1 := Building("Lenina 1", 55.0, 37.0)],
       FoodStore(),
       [Link(1, 1), Link(2, 2)])
  }

  /** The text facts the activity search needs on `FoodDb`. */
  lemma FoodTextFacts()
    ensures !IsDigits("Food")
    ensures ContainsIgnoreCase("Food", "Food")
    ensures !ContainsIgnoreCase("Bread", "Food")
  {
    assert !IsDigitChar("Food"[0]);
    assert "Food" <= "Food";
    MissingFirstCharIgnoreCase("Bread", "Food");
  }

  /** The link of organization 1 to "Food" matches the text "Food"; no link of organization 2 does. */
  lemma FoodLinks()
    ensures LinkMatches(FoodDb(), Organization(1, "Mart", 1, Some("111")), Link(1, 1), "Food")
    ensures forall l :: l in FoodDb().links ==> !LinkMatches(FoodDb(), Organization(2, "Bun", 1, Some("222")), l, "Food")
  {
    FoodTextFacts();
    assert FoodDb().activities[1].name == "Food";
    assert FoodDb().activities[2].name == "Bread";
  }

  /** Searching for the parent activity does not reach an organization
      assigned only its child: the search has no descendant expansion. */
  lemma ActivitySearchSkipsDescendants()
    ensures Organization(1, "Mart", 1, Some("111")) in SearchByActivity(FoodDb(), "Food")
    ensures Organization(2, "Bun", 1, Some("222")) !in SearchByActivity(FoodDb(), "Food")
  {
    FoodTextFacts();
    FoodLinks();
    assert Link(1, 1) in FoodDb().links;
    assert Organization(1, "Mart", 1, Some("111")) in FoodDb().organizations;
  }

  /** "Food" ranks below "Bread", so the store is acyclic. */
  lemma FoodStoreAcyclic()
    ensures Acyclic(FoodStore())
    ensures StoredParent(FoodStore(), 1) == None
    ensures StoredParent(FoodStore(), 2) == Some(1)
  {
    assert RankedBy(FoodStore(), map[1 := 0, 2 := 1]);
  }

  /** Collecting the parents of "Bread" yields both rows, and "Food" is the only root. */
  lemma FoodClosure()
    ensures Acyclic(FoodStore())
    ensures Closure(FoodStore(), [2]) == {1, 2}
    ensures RootIds(FoodStore(), [2], {1, 2}) == {1}
  {
    var store := FoodStore();
    FoodStoreAcyclic();
    assert Ancestors(store, 1) == {1};
    assert Ancestors(store, 2) == {2, 1};
    assert NullParentRows(store, {1, 2}) == {1};
  }

  /** Inside `{1, 2}`, "Bread" is a leaf and "Food" has "Bread" as its one child. */
  lemma FoodTrees()
    ensures Acyclic(FoodStore())
    ensures Build(FoodStore(), {1, 2}, 2) == ActivityTree(2, "Bread", [])
    ensures Build(FoodStore(), {1, 2}, 1) == ActivityTree(1, "Food", [ActivityTree(2, "Bread", [])])
  {
    var store := FoodStore();
    FoodStoreAcyclic();
    assert ChildrenIn(store, {1, 2}, 1) == {2};
    assert ChildrenIn(store, {1, 2}, 2) == {};
    assert Ascending({}) == [];
    assert Ascending({2}) == [2];
  }

  /** The organization assigned "Bread" is shown under its parent "Food". */
  lemma ChildActivityShownUnderParent()
    ensures Acyclic(FoodStore())
    ensures BuildForest(FoodStore(), [2]) ==
      [ActivityTree(1, "Food", [ActivityTree(2, "Bread", [])])]
  {
    FoodClosure();
    FoodTrees();
    var roots := Ascending(RootIds(FoodStore(), [2], Closure(FoodStore(), [2])));
    assert roots == [1] by {
      assert Ascending({1}) == [1];
    }
  }

  /** The text facts the name search needs on `FoodDb`. */
  lemma DigitTextFacts()
    ensures IsDigits("2") && ParseDecimal("2") == 2
    ensures !ContainsIgnoreCase("Bun", "2")
  {
    assert IsDigitChar("2"[0]);
    MissingFirstCharIgnoreCase("Bun", "2");
  }

  /** An all-digit name query needs the id AND the digits in the name. */
  lemma NameSearchNeedsIdAndName()
    ensures SearchByName(FoodDb(), "2") == []
  {
    var db := FoodDb();
    DigitTextFacts();
    forall o | o in db.organizations
      ensures !NameFilter("2")(o)
    {
      assert o == Organization(1, "Mart", 1, Some("111")) || o == Organization(2, "Bun", 1, Some("222"));
    }
    FilterNonEmpty(db.organizations, NameFilter("2"));
  }

  /** Rows 1, 2, 0 and 4, each the child of the one before. */
  function ZeroChain(): Store
  {
    map[1 := Activity("a", None), 2 := Activity("b", Some(1)), 0 := Activity("c", Some(2)), 4 := Activity("d", Some(0))]
  }

  function ZeroChainRequests(): seq<InsertRequest>
  {
    [InsertRequest(1, "a", None), InsertRequest(2, "b", Some(1)),
     InsertRequest(0, "c", Some(2)), InsertRequest(4, "d", Some(0))]
  }

  lemma ZeroChainAcyclic()
    ensures Acyclic(ZeroChain())
    ensures NoDangling(ZeroChain())
  {
    assert RankedBy(ZeroChain(), map[1 := 0, 2 := 1, 0 := 2, 4 := 3]);
  }

  /** The first one, two and three rows of `ZeroChain`. */
  function ChainPrefix(n: nat): Store
  {
    if n == 0 then map[]
    else if n == 1 then map[1 := Activity("a", None)]
    else if n == 2 then map[1 := Activity("a", None), 2 := Activity("b", Some(1))]
    else map[1 := Activity("a", None), 2 := Activity("b", Some(1)), 0 := Activity("c", Some(2))]
  }

  lemma ChainPrefixesAcyclic()
    ensures Acyclic(ChainPrefix(0)) && Acyclic(ChainPrefix(1)) && Acyclic(ChainPrefix(2)) && Acyclic(ChainPrefix(3))
  {
    EmptyStoreIsWellFormed();
    assert RankedBy(ChainPrefix(1), map[1 := 0]);
    assert RankedBy(ChainPrefix(2), map[1 := 0, 2 := 1]);
    ThirdPrefixAcyclic();
  }

  lemma ThirdPrefixAcyclic()
    ensures Acyclic(ChainPrefix(3))
  {
    var store := ChainPrefix(3);
    var rank := map[1 := 0, 2 := 1, 0 := 2];
    assert StoredParent(store, 0) == Some(2) && StoredParent(store, 2) == Some(1) && StoredParent(store, 1) == None;
    assert RankedBy(store, rank);
  }

  /** The first two inserts of the chain: a root, then its child at depth 2. */
  lemma ZeroChainFirstSteps()
    ensures Acyclic(ChainPrefix(0)) && Acyclic(ChainPrefix(1))
    ensures CheckedInsert(ChainPrefix(0), 1, "a", None) == Ok(ChainPrefix(1))
    ensures CheckedInsert(ChainPrefix(1), 2, "b", Some(1)) == Ok(ChainPrefix(2))
  {
    ChainPrefixesAcyclic();
    assert Depth(ChainPrefix(1), Some(1)) == 1;
    assert ChainPrefix(0)[1 := Activity("a", None)] == ChainPrefix(1);
    assert ChainPrefix(1)[2 := Activity("b", Some(1))] == ChainPrefix(2);
  }

  /** Row 0 goes under row 2 (depth 2); row 4 goes under row 0, whose falsy
      id makes its depth read as 0. */
  lemma ZeroChainLastSteps()
    ensures Acyclic(ChainPrefix(2)) && Acyclic(ChainPrefix(3))
    ensures CheckedInsert(ChainPrefix(2), 0, "c", Some(2)) == Ok(ChainPrefix(3))
    ensures CheckedInsert(ChainPrefix(3), 4, "d", Some(0)) == Ok(ZeroChain())
  {
    ChainPrefixesAcyclic();
    assert StoredParent(ChainPrefix(2), 2) == Some(1);
    assert Depth(ChainPrefix(2), Some(2)) == 2;
    assert Depth(ChainPrefix(3), Some(0)) == 0;
    assert ChainPrefix(2)[0 := Activity("c", Some(2))] == ChainPrefix(3);
    assert ChainPrefix(3)[4 := Activity("d", Some(0))] == ZeroChain();
  }

  /** The walk up from row 4 meets four rows. */
  lemma ZeroChainAncestors()
    ensures Acyclic(ZeroChain())
    ensures Ancestors(ZeroChain(), 4) == {4, 0, 2, 1}
    ensures |Ancestors(ZeroChain(), 4)| == 4
  {
    ZeroChainAcyclic();
    var store := ZeroChain();
    assert StoredParent(store, 1) == None;
    assert Ancestors(store, 1) == {1};
    assert Ancestors(store, 2) == {2, 1};
    assert Ancestors(store, 0) == {0, 2, 1};
    assert |{4, 0, 2, 1}| == 4;
  }

  lemma ChainStep1()
    ensures Capped(map[]) && Capped(ChainPrefix(1))
    ensures ApplyInserts(map[], ZeroChainRequests()) == ApplyInserts(ChainPrefix(1), ZeroChainRequests()[1..])
  {
    EmptyStoreIsWellFormed();
    ZeroChainFirstSteps();
    assert ChainPrefix(0) == map[];
    ApplyInsertsStep(ChainPrefix(0), ZeroChainRequests());
  }

  lemma ChainStep2()
    ensures Capped(ChainPrefix(1)) && Capped(ChainPrefix(2))
    ensures ApplyInserts(ChainPrefix(1), ZeroChainRequests()[1..]) == ApplyInserts(ChainPrefix(2), ZeroChainRequests()[2..])
  {
    ChainStep1();
    ZeroChainFirstSteps();
    var q := ZeroChainRequests()[1..];
    assert q[0] == InsertRequest(2, "b", Some(1));
    assert q[1..] == ZeroChainRequests()[2..];
    ApplyInsertsStep(ChainPrefix(1), q);
  }

  lemma ChainStep3()
    ensures Capped(ChainPrefix(2)) && Capped(ChainPrefix(3))
    ensures ApplyInserts(ChainPrefix(2), ZeroChainRequests()[2..]) == ApplyInserts(ChainPrefix(3), ZeroChainRequests()[3..])
  {
    ChainStep2();
    ZeroChainLastSteps();
    var q := ZeroChainRequests()[2..];
    assert q[0] == InsertRequest(0, "c", Some(2));
    assert q[1..] == ZeroChainRequests()[3..];
    ApplyInsertsStep(ChainPrefix(2), q);
  }

  lemma ChainStep4()
    ensures Capped(ChainPrefix(3))
    ensures ApplyInserts(ChainPrefix(3), ZeroChainRequests()[3..]) == ZeroChain()
  {
    ChainStep3();
    ZeroChainLastSteps();
    var q := ZeroChainRequests()[3..];
    assert q[0] == InsertRequest(4, "d", Some(0));
    assert q[1..] == [];
    ApplyInsertsStep(ChainPrefix(3), q);
  }

  /** The four requests, applied one by one from an empty table, build `ZeroChain`. */
  lemma ZeroChainApplied()
    ensures Capped(map[])
    ensures ApplyInserts(map[], ZeroChainRequests()) == ZeroChain()
  {
    ChainStep1();
    ChainStep2();
    ChainStep3();
    ChainStep4();
  }

  /** A row with id 0 resets the depth count: checked inserts from an empty
      table reach a table that satisfies the depth cap yet nests four rows deep. */
  lemma ZeroIdBypassesDepthCap()
    ensures Capped(map[])
    ensures ApplyInserts(map[], ZeroChainRequests()) == ZeroChain()
    ensures Acyclic(ZeroChain()) && |Ancestors(ZeroChain(), 4)| == 4 > MaxDepth
  {
    ZeroChainApplied();
    ZeroChainAncestors();
  }
}

=== FILE: search.dfy ===
/** `get_organizations` and its search strategies, each the SQL query it
    issues evaluated over an in-memory snapshot: joins produce one row per
    matching partner row, and `.unique()` keeps the first copy of each. */
module Search {
  import opened Base
  import opened Text
  import opened Seqs
  import opened Activities
  import opened Organizations

  /** The parameters `get_organizations` receives: the geo request shape, or
      the three optional text filters. */
  datatype Query =
    | GeoQuery(latitude: real, longitude: real, radius: int)
    | TextQuery(buildingName: Option<string>, organizationName: Option<string>, activityName: Option<string>)

  /** The strategy that serves a query. */
  datatype Strategy =
    | ByGeo(latitude: real, longitude: real, radius: int)
    | ByBuilding(text: string)
    | ByName(text: string)
    | ByActivity(text: string)
    | AllOrganizations

  /** Python truthiness of an optional string: `None` and `""` are false. */
  predicate Given(field: Option<string>)
  {
    field.Some? && |field.value| > 0
  }

  /** The `if`/`elif` chain of `get_organizations`. */
  function Dispatch(query: Query): (s: Strategy)
    ensures query.GeoQuery? <==> s.ByGeo?
    ensures query.GeoQuery? ==> s == ByGeo(query.latitude, query.longitude, query.radius)
    ensures query.TextQuery? ==>
      && (s.ByBuilding? <==> Given(query.buildingName))
      && (s.ByName? <==> !Given(query.buildingName) && Given(query.organizationName))
      && (s.ByActivity? <==> !Given(query.buildingName) && !Given(query.organizationName) && Given(query.activityName))
      && (s.AllOrganizations? <==> !Given(query.buildingName) && !Given(query.organizationName) && !Given(query.activityName))
    ensures s.ByBuilding? ==> Some(s.text) == query.buildingName
    ensures s.ByName? ==> Some(s.text) == query.organizationName
    ensures s.ByActivity? ==> Some(s.text) == query.activityName
  {
    match query
    case GeoQuery(lat, lon, radius) => ByGeo(lat, lon, radius)
    case TextQuery(building, organization, activity) =>
      if Given(building) then ByBuilding(building.value)
      else if Given(organization) then ByName(organization.value)
      else if Given(activity) then ByActivity(activity.value)
      else AllOrganizations
  }

  /** `__get_organization_by_building`: inner join with `buildings` and
      `Building.address ILIKE '%text%'`. */
  function SearchByBuilding(db: Db, text: string): (r: seq<Organization>)
    ensures NoDuplicates(r)
    ensures forall o :: o in r <==>
      && o in db.organizations
      && o.buildingId in db.buildings
      && ContainsIgnoreCase(db.buildings[o.buildingId].address, text)
  {
    Dedup(Filter(db.organizations, AddressMatches(db, text)))
  }

  function AddressMatches(db: Db, text: string): Organization -> bool
  {
    (o: Organization) => o.buildingId in db.buildings && ContainsIgnoreCase(db.buildings[o.buildingId].address, text)
  }

  /** `__get_organizations_by_name`. For an all-digit text the query is
      `filter(or_(id == int(text)), name ILIKE '%text%')`: the `or_` closes
      after its one argument, so both tests must hold. */
  function SearchByName(db: Db, text: string): (r: seq<Organization>)
    ensures NoDuplicates(r)
    ensures forall o :: o in r <==>
      && o in db.organizations
      && ContainsIgnoreCase(o.name, text)
      && (IsDigits(text) ==> o.id == ParseDecimal(text))
  {
    Dedup(Filter(db.organizations, NameFilter(text)))
  }

  /** The WHERE clause of the name search. */
  function NameFilter(text: string): Organization -> bool
  {
    if IsDigits(text) then
      var id := ParseDecimal(text);
      (o: Organization) => o.id == id && ContainsIgnoreCase(o.name, text)
    else
      (o: Organization) => ContainsIgnoreCase(o.name, text)
  }

  /** An activity row the digit branch of the activity search matches. */
  predicate ActivityRowMatches(store: Store, a: Id, text: string)
    requires IsDigits(text)
  {
    a in store && (a == ParseDecimal(text) || ContainsIgnoreCase(store[a].name, text))
  }

  /** A link of `o` to an activity whose name contains `text`. */
  predicate LinkMatches(db: Db, o: Organization, l: Link, text: string)
  {
    l.organization == o.id && l.activity in db.activities && ContainsIgnoreCase(db.activities[l.activity].name, text)
  }

  /** The rows one organization contributes to the join
      organizations ⋈ organization_activities ⋈ activities. */
  function JoinedRows(db: Db, o: Organization, text: string): (n: nat)
    ensures n > 0 <==> exists l :: l in db.links && LinkMatches(db, o, l, text)
  {
    FilterNonEmpty(db.links, (l: Link) => LinkMatches(db, o, l, text));
    |Filter(db.links, (l: Link) => LinkMatches(db, o, l, text))|
  }

  function AssignmentJoin(db: Db, text: string): Organization -> nat
  {
    (o: Organization) => JoinedRows(db, o, text)
  }

  /** The activity rows the digit branch matches; every organization is paired with each. */
  function MatchedActivityRows(store: Store, text: string): (n: nat)
    requires IsDigits(text)
    ensures n > 0 <==> exists a :: ActivityRowMatches(store, a, text)
  {
    var rows := Ascending(store.Keys);
    var hits := Filter(rows, (a: Id) => ActivityRowMatches(store, a, text));
    FilterNonEmpty(rows, (a: Id) => ActivityRowMatches(store, a, text));
    |hits|
  }

  /** `__get_organizations_by_activity`. A non-digit text joins through the
      assignment table and keeps organizations directly assigned a matching
      activity (descendant activities are not consulted). An all-digit text
      filters on `Activity` columns without any join: the cross product with
      `activities` keeps every organization when some activity matches, and
      none otherwise. */
  function SearchByActivity(db: Db, text: string): (r: seq<Organization>)
    ensures NoDuplicates(r)
    ensures IsDigits(text) ==> forall o :: o in r <==>
      o in db.organizations && exists a :: ActivityRowMatches(db.activities, a, text)
    ensures !IsDigits(text) ==> forall o :: o in r <==>
      o in db.organizations && exists l :: l in db.links && LinkMatches(db, o, l, text)
  {
    if IsDigits(text) then
      var hits := MatchedActivityRows(db.activities, text);
      Dedup(Expand(db.organizations, (o: Organization) => hits))
    else
      Dedup(Expand(db.organizations, AssignmentJoin(db, text)))
  }

  /** `__get_organizations_by_geo`: every organization whose building lies within
      `radius` of the given point. `distance` stands for geopy's geodesic
      distance in metres. Reading the coordinates of an organization without a
      building raises, and that failure ends the search. */
  function SearchByGeo(db: Db, latitude: real, longitude: real, radius: int,
                       distance: (real, real, real, real) -> real): (r: Result<seq<Organization>, Fault>)
    ensures r.Ok? <==> BuildingsPresent(db)
    ensures r.Err? ==> r.error.MissingBuilding?
    ensures r.Ok? ==> forall o :: o in r.value <==>
      && o in db.organizations
      && distance(latitude, longitude, db.buildings[o.buildingId].latitude, db.buildings[o.buildingId].longitude) <= radius as real
  {
    var orgs := db.organizations;
    if exists o :: o in orgs && o.buildingId !in db.buildings then
      Err(MissingBuilding(FirstWithoutBuilding(db, orgs)))
    else
      Ok(Filter(orgs, (o: Organization) =>
        o.buildingId in db.buildings &&
        distance(latitude, longitude, db.buildings[o.buildingId].latitude, db.buildings[o.buildingId].longitude) <= radius as real))
  }

  /** The id of the first organization in `orgs` whose building row is missing. */
  function FirstWithoutBuilding(db: Db, orgs: seq<Organization>): (id: Id)
    requires exists o :: o in orgs && o.buildingId !in db.buildings
    ensures exists o :: o in orgs && o.buildingId !in db.buildings && o.id == id
    decreases |orgs|
  {
    if orgs[0].buildingId !in db.buildings then orgs[0].id
    else
      assert exists o :: o in orgs[1..] && o.buildingId !in db.buildings by {
        var o :| o in orgs && o.buildingId !in db.buildings;
        assert o != orgs[0];
      }
      FirstWithoutBuilding(db, orgs[1..])
  }

  /** Running the chosen strategy. `__get_all_organizations` applies no `.unique()`. */
  function Run(db: Db, strategy: Strategy, distance: (real, real, real, real) -> real): (r: Result<seq<Organization>, Fault>)
    ensures !strategy.ByGeo? ==> r.Ok?
    ensures strategy.AllOrganizations? ==> r == Ok(db.organizations)
  {
    match strategy
    case ByGeo(lat, lon, radius) => SearchByGeo(db, lat, lon, radius, distance)
    case ByBuilding(text) => Ok(SearchByBuilding(db, text))
    case ByName(text) => Ok(SearchByName(db, text))
    case ByActivity(text) => Ok(SearchByActivity(db, text))
    case AllOrganizations => Ok(db.organizations)
  }

  /** `get_organizations` before serialization. */
  function SearchOrganizations(db: Db, query: Query, distance: (real, real, real, real) -> real): (r: Result<seq<Organization>, Fault>)
    ensures query.TextQuery? ==> r.Ok?
    ensures r.Ok? ==> forall o :: o in r.value ==> o in db.organizations
  {
    Run(db, Dispatch(query), distance)
  }

  /** With distinct organization rows, `.unique()` changes nothing: the
      building search returns the matching organizations in table order. */
  lemma BuildingSearchInTableOrder(db: Db, text: string)
    requires NoDuplicates(db.organizations)
    ensures SearchByBuilding(db, text) == Filter(db.organizations, AddressMatches(db, text))
  {
    FilterKeepsNoDuplicates(db.organizations, AddressMatches(db, text));
    DedupDistinct(Filter(db.organizations, AddressMatches(db, text)));
  }

  lemma NameSearchInTableOrder(db: Db, text: string)
    requires NoDuplicates(db.organizations)
    ensures SearchByName(db, text) == Filter(db.organizations, NameFilter(text))
  {
    FilterKeepsNoDuplicates(db.organizations, NameFilter(text));
    DedupDistinct(Filter(db.organizations, NameFilter(text)));
  }

  /** With distinct organization rows, `.unique()` over the assignment join
      keeps each organization with a matching assignment once, in table order;
      the digit branch's cross product yields the whole table or nothing. */
  /** The primary key on organization ids is enough for the building and name
      searches to return the matching organizations in table order. */
  lemma PrimaryKeySearchesInTableOrder(db: Db, text: string)
    requires DistinctIds(db.organizations)
    ensures SearchByBuilding(db, text) == Filter(db.organizations, AddressMatches(db, text))
    ensures SearchByName(db, text) == Filter(db.organizations, NameFilter(text))
  {
    DistinctIdsHaveNoDuplicates(db.organizations);
    BuildingSearchInTableOrder(db, text);
    NameSearchInTableOrder(db, text);
  }

  lemma ActivitySearchInTableOrder(db: Db, text: string)
    requires NoDuplicates(db.organizations)
    ensures !IsDigits(text) ==>
      SearchByActivity(db, text) == Filter(db.organizations, Positive(AssignmentJoin(db, text)))
    ensures IsDigits(text) ==>
      SearchByActivity(db, text) ==
        if exists a :: ActivityRowMatches(db.activities, a, text) then db.organizations else []
  {
    if IsDigits(text) {
      var hits := MatchedActivityRows(db.activities, text);
      var k := (o: Organization) => hits;
      DedupExpand(db.organizations, k);
      if hits > 0 {
        FilterAll(db.organizations, Positive(k));
      } else {
        FilterNonEmpty(db.organizations, Positive(k));
      }
    } else {
      DedupExpand(db.organizations, AssignmentJoin(db, text));
    }
  }

  /** A wider radius never drops an organization. */
  lemma GeoSearchMonotone(db: Db, latitude: real, longitude: real, r1: int, r2: int,
                          distance: (real, real, real, real) -> real)
    requires BuildingsPresent(db)
    requires r1 <= r2
    ensures forall o :: o in SearchByGeo(db, latitude, longitude, r1, distance).value ==>
                        o in SearchByGeo(db, latitude, longitude, r2, distance).value
  {
  }
}

=== FILE: seqs.dfy ===
/** Sequence and set helpers: duplicate-freedom, filtering, SQLAlchemy's
    `.unique()` (keep the first occurrence of every row) and listing a finite
    set of ids in ascending order. */
module Seqs {

  predicate NoDuplicates<T(==)>(s: seq<T>)
  {
    forall i, j :: 0 <= i < j < |s| ==> s[i] != s[j]
  }

  /** The elements of `s` that satisfy `p`, in their original order. */
  function Filter<T(!new)>(s: seq<T>, p: T -> bool): (r: seq<T>)
    ensures |r| <= |s|
    ensures forall x :: x in r <==> x in s && p(x)
    decreases |s|
  {
    if |s| == 0 then []
    else Filter(s[..|s| - 1], p) + (if p(s[|s| - 1]) then [s[|s| - 1]] else [])
  }

  /** Filtering distributes over concatenation, so the kept elements keep
      their relative order: a kept element of `a` comes before one of `b`. */
  lemma {:induction false} FilterConcat<T(!new)>(a: seq<T>, b: seq<T>, p: T -> bool)
    ensures Filter(a + b, p) == Filter(a, p) + Filter(b, p)
    decreases |b|
  {
    if |b| == 0 {
      assert a + b == a;
    } else {
      var init := b[..|b| - 1];
      var tail := if p(b[|b| - 1]) then [b[|b| - 1]] else [];
      ConcatDropLast(a, b);
      assert Filter(a + b, p) == Filter(a + init, p) + tail;
      FilterConcat(a, init, p);
      assert Filter(b, p) == Filter(init, p) + tail;
      ConcatAssoc(Filter(a, p), Filter(init, p), tail);
    }
  }

  lemma {:induction false} FilterKeepsNoDuplicates<T(!new)>(s: seq<T>, p: T -> bool)
    requires NoDuplicates(s)
    ensures NoDuplicates(Filter(s, p))
    decreases |s|
  {
    if |s| > 0 {
      var init := s[..|s| - 1];
      assert NoDuplicates(init);
      FilterKeepsNoDuplicates(init, p);
      assert s[|s| - 1] !in init;
    }
  }

  /** A filter keeps something exactly when some element passes it. */
  lemma FilterNonEmpty<T(!new)>(s: seq<T>, p: T -> bool)
    ensures |Filter(s, p)| > 0 <==> exists x :: x in s && p(x)
  {
    var r := Filter(s, p);
    if |r| > 0 {
      assert r[0] in r;
    }
  }

  /** A filter that keeps everything returns its input. */
  lemma {:induction false} FilterAll<T(!new)>(s: seq<T>, p: T -> bool)
    requires forall i :: 0 <= i < |s| ==> p(s[i])
    ensures Filter(s, p) == s
    decreases |s|
  {
    if |s| > 0 {
      FilterAll(s[..|s| - 1], p);
      SplitLast(s);
    }
  }

  lemma ConcatAssoc<T>(x: seq<T>, y: seq<T>, z: seq<T>)
    ensures (x + y) + z == x + (y + z)
  {
  }

  lemma ConcatDropLast<T>(a: seq<T>, b: seq<T>)
    requires |b| > 0
    ensures (a + b)[..|a + b| - 1] == a + b[..|b| - 1]
    ensures (a + b)[|a + b| - 1] == b[|b| - 1]
  {
  }

  lemma SplitLast<T>(s: seq<T>)
    requires |s| > 0
    ensures s[..|s| - 1] + [s[|s| - 1]] == s
  {
  }

  /** SQLAlchemy's `Result.unique()`: drops every repeat of an earlier row. */
  function Dedup<T(==,!new)>(s: seq<T>): (r: seq<T>)
    ensures NoDuplicates(r)
    ensures forall x :: x in r <==> x in s
    ensures |r| <= |s|
    decreases |s|
  {
    if |s| == 0 then []
    else
      var d := Dedup(s[..|s| - 1]);
      var x := s[|s| - 1];
      assert x in s;
      if x in d then d else d + [x]
  }

  /** `.unique()` on rows that are already distinct changes nothing. */
  lemma {:induction false} DedupDistinct<T(!new)>(s: seq<T>)
    requires NoDuplicates(s)
    ensures Dedup(s) == s
    decreases |s|
  {
    if |s| > 0 {
      var init := s[..|s| - 1];
      DedupDistinct(init);
      assert s[|s| - 1] !in init;
      assert init + [s[|s| - 1]] == s;
    }
  }

  function Repeat<T(!new)>(x: T, n: nat): (r: seq<T>)
    ensures |r| == n
    ensures forall i :: 0 <= i < n ==> r[i] == x
    ensures forall y :: y in r <==> n > 0 && y == x
  {
    if n == 0 then [] else Repeat(x, n - 1) + [x]
  }

  /** The rows of a join: every element of `s`, in order, once per partner row it matched. */
  function Expand<T(!new)>(s: seq<T>, matches: T -> nat): (r: seq<T>)
    ensures forall x :: x in r <==> x in s && matches(x) > 0
    decreases |s|
  {
    if |s| == 0 then []
    else
      var x := s[|s| - 1];
      Expand(s[..|s| - 1], matches) + Repeat(x, matches(x))
  }

  /** The elements that find at least one partner row. */
  function Positive<T>(matches: T -> nat): T -> bool
  {
    x => matches(x) > 0
  }

  /** `.unique()` of one more row: the row is added unless already seen. */
  lemma DedupSnoc<T(!new)>(a: seq<T>, x: T)
    ensures Dedup(a + [x]) == if x in Dedup(a) then Dedup(a) else Dedup(a) + [x]
  {
    assert (a + [x])[..|a|] == a;
  }

  lemma {:induction false} DedupAppendRepeat<T(!new)>(a: seq<T>, x: T, n: nat)
    ensures n == 0 || x in a ==> Dedup(a + Repeat(x, n)) == Dedup(a)
    ensures n > 0 && x !in a ==> Dedup(a + Repeat(x, n)) == Dedup(a) + [x]
    decreases n
  {
    if n == 0 {
      assert a + Repeat(x, n) == a;
    } else {
      var b := a + Repeat(x, n - 1);
      assert a + Repeat(x, n) == b + [x];
      DedupAppendRepeat(a, x, n - 1);
      DedupSnoc(b, x);
      if n - 1 == 0 && x !in a {
        assert b == a;
      } else {
        assert x in b;
      }
    }
  }

  /** `.unique()` over the rows of a join over distinct left-hand rows keeps
      every left-hand row that matched at least once, in its original order. */
  lemma {:induction false} DedupExpand<T(!new)>(s: seq<T>, matches: T -> nat)
    requires NoDuplicates(s)
    ensures Dedup(Expand(s, matches)) == Filter(s, Positive(matches))
    decreases |s|
  {
    if |s| > 0 {
      var init := s[..|s| - 1];
      var x := s[|s| - 1];
      assert NoDuplicates(init);
      DedupExpand(init, matches);
      DedupAppendRepeat(Expand(init, matches), x, matches(x));
      assert x !in init;
      assert x !in Expand(init, matches);
    }
  }

  /** The least element of a non-empty finite set of naturals. */
  function SetMin(s: set<nat>): (m: nat)
    requires s != {}
    ensures m in s
    ensures forall y :: y in s ==> m <= y
  {
    MinExists(s);
    var m :| m in s && forall y :: y in s ==> m <= y;
    m
  }

  lemma MinExists(s: set<nat>)
    requires s != {}
    ensures exists m :: m in s && forall y :: y in s ==> m <= y
  {
    var m := LeastOf(s);
  }

  lemma LeastOf(s: set<nat>) returns (m: nat)
    requires s != {}
    ensures m in s
    ensures forall y :: y in s ==> m <= y
    decreases |s|
  {
    var x :| x in s;
    var rest := s - {x};
    if rest == {} {
      assert s == {x};
      m := x;
    } else {
      assert |rest| < |s|;
      var k := LeastOf(rest);
      m := if x < k then x else k;
      forall y | y in s
        ensures m <= y
      {
        if y != x {
          assert y in rest;
        }
      }
    }
  }

  lemma {:induction false} SubsetSize<T>(a: set<T>, b: set<T>)
    requires a <= b
    ensures |a| <= |b|
    decreases |a|
  {
    if a != {} {
      var x :| x in a;
      SubsetSize(a - {x}, b - {x});
    }
  }

  predicate StrictlyIncreasing(s: seq<nat>)
  {
    forall i, j :: 0 <= i < j < |s| ==> s[i] < s[j]
  }

  /** The members of a finite id set in ascending order: the order in which
      the model lists rows whose order SQL leaves unspecified. */
  function Ascending(s: set<nat>): (r: seq<nat>)
    ensures StrictlyIncreasing(r)
    ensures forall x :: x in r <==> x in s
    ensures |r| == |s|
    decreases |s|
  {
    if s == {} then []
    else
      var m := SetMin(s);
      var rest := Ascending(s - {m});
      assert forall x :: x in rest ==> m < x;
      [m] + rest
  }
}

=== FILE: text.dfy ===
/** The string tests the search strategies rely on: ASCII case folding,
    case-insensitive substring search (SQL `ILIKE '%q%'` without wildcards
    inside `q`), Python's `str.isdigit` and `int(str)` on decimal digits. */
module Text {

  /** ASCII lower-casing of one character; every other character is kept. */
  function Lower(c: char): char
  {
    if 'A' <= c <= 'Z' then (c as int + 32) as char else c
  }

  function LowerString(s: string): (r: string)
    ensures |r| == |s|
    ensures forall i :: 0 <= i < |s| ==> r[i] == Lower(s[i])
  {
    if |s| == 0 then [] else [Lower(s[0])] + LowerString(s[1..])
  }

  /** Reference definition of "needle occurs in hay": some window of `hay` equals `needle`. */
  ghost predicate OccursAt(hay: string, needle: string, i: int)
  {
    0 <= i && i + |needle| <= |hay| && hay[i..i + |needle|] == needle
  }

  /** Substring search by walking the start position through `hay`. */
  predicate Contains(hay: string, needle: string)
    decreases |hay|
  {
    needle <= hay || (|hay| > 0 && Contains(hay[1..], needle))
  }

  lemma {:induction false} OccursImpliesContains(hay: string, needle: string, i: int)
    requires OccursAt(hay, needle, i)
    ensures Contains(hay, needle)
    decreases i
  {
    if i == 0 {
      assert needle == hay[..|needle|];
    } else {
      assert hay[1..][i - 1..i - 1 + |needle|] == hay[i..i + |needle|];
      OccursImpliesContains(hay[1..], needle, i - 1);
    }
  }

  lemma {:induction false} ContainsImpliesOccurs(hay: string, needle: string) returns (i: int)
    requires Contains(hay, needle)
    ensures OccursAt(hay, needle, i)
    decreases |hay|
  {
    if needle <= hay {
      i := 0;
      assert hay[0..|needle|] == needle;
    } else {
      var j := ContainsImpliesOccurs(hay[1..], needle);
      i := j + 1;
      assert hay[i..i + |needle|] == hay[1..][j..j + |needle|];
    }
  }

  /** `Contains` finds exactly the needles that occur at some position. */
  lemma ContainsIffOccurs(hay: string, needle: string)
    ensures Contains(hay, needle) <==> exists i :: OccursAt(hay, needle, i)
  {
    if Contains(hay, needle) {
      var i := ContainsImpliesOccurs(hay, needle);
    }
    if i :| OccursAt(hay, needle, i) {
      OccursImpliesContains(hay, needle, i);
    }
  }

  /** A needle whose first character never occurs in `hay` is not found. */
  lemma {:induction false} MissingFirstCharNotContained(hay: string, needle: string)
    requires |needle| > 0
    requires forall i :: 0 <= i < |hay| ==> hay[i] != needle[0]
    ensures !Contains(hay, needle)
    decreases |hay|
  {
    if |hay| > 0 {
      assert hay[0] != needle[0];
      assert !(needle <= hay);
      MissingFirstCharNotContained(hay[1..], needle);
    }
  }

  /** `hay ILIKE '%needle%'` with ASCII case folding and no wildcard characters inside `needle`. */
  predicate ContainsIgnoreCase(hay: string, needle: string)
  {
    Contains(LowerString(hay), LowerString(needle))
  }

  /** Case-insensitive form: no character of `hay` folds to the needle's first folded character. */
  lemma MissingFirstCharIgnoreCase(hay: string, needle: string)
    requires |needle| > 0
    requires forall i :: 0 <= i < |hay| ==> Lower(hay[i]) != Lower(needle[0])
    ensures !ContainsIgnoreCase(hay, needle)
  {
    MissingFirstCharNotContained(LowerString(hay), LowerString(needle));
  }

  predicate IsDigitChar(c: char)
  {
    '0' <= c <= '9'
  }

  /** Python's `str.isdigit` restricted to ASCII: non-empty and every character a digit. */
  predicate IsDigits(s: string)
  {
    |s| > 0 && forall i :: 0 <= i < |s| ==> IsDigitChar(s[i])
  }

  /** Python's `int(s)` for a string of decimal digits (leading zeros allowed). */
  function ParseDecimal(s: string): (n: nat)
    requires forall i :: 0 <= i < |s| ==> IsDigitChar(s[i])
    ensures |s| == 0 ==> n == 0
    decreases |s|
  {
    if |s| == 0 then 0
    else
      assert IsDigitChar(s[|s| - 1]);
      10 * ParseDecimal(s[..|s| - 1]) + (s[|s| - 1] as int - '0' as int)
  }

  /** Python's `str(n)` for a natural number: shortest decimal spelling. */
  function ShowDecimal(n: nat): (s: string)
    ensures IsDigits(s)
    ensures |s| > 1 ==> s[0] != '0'
    decreases n
  {
    var d := [('0' as int + n % 10) as char];
    if n < 10 then d else ShowDecimal(n / 10) + d
  }

  /** `int(str(n)) == n`: parsing undoes printing. */
  lemma {:induction false} ParseShow(n: nat)
    ensures ParseDecimal(ShowDecimal(n)) == n
    decreases n
  {
    var s := ShowDecimal(n);
    if n >= 10 {
      ParseShow(n / 10);
      assert s[..|s| - 1] == ShowDecimal(n / 10);
    }
  }

  /** A leading zero does not change the parsed value (`int("07") == 7`). */
  lemma {:induction false} ParseLeadingZero(s: string)
    requires forall i :: 0 <= i < |s| ==> IsDigitChar(s[i])
    ensures ParseDecimal("0" + s) == ParseDecimal(s)
    decreases |s|
  {
    if |s| > 0 {
      var t := "0" + s;
      assert t[..|t| - 1] == "0" + s[..|s| - 1];
      ParseLeadingZero(s[..|s| - 1]);
    }
  }
}
